=== FILE: README.md ===
# EcoFrog integration, modelled in Dafny

A model of the EcoFrog tank-sensor integration for Home Assistant. The integration polls the E-Sensorix cloud API for tank readings. The model covers three parts:

- **The poll** (`EcoFrogUpdateCoordinator._update_ecofrog`). The API sometimes encodes its JSON answer twice. The poll undoes this and takes the `DeviceResponse` payload. A login complaint becomes an authentication failure. Every record gets `last_update_successful` and, when its `LastUpdate` text parses under `%m/%d/%Y %I:%M:%S %p`, a `last_update` time.
- **The setup dialog** (`test_auth`, `ConfigFlow.validate_input`, `ConfigFlow.async_step_user`). It asks the API about the entered credentials. It then either creates a config entry titled after the device or shows the form again with one error.
- **The sensor platform**. This covers unique ids and the device name, the integer readings, the gauge icons of the volume and percentage sensors, and the extra state attributes.

## Layout

| file | module | contents |
|---|---|---|
| `results.dfy` | `Results` | `Option` and `Result`, usable with `:-` |
| `text.dfy` | `Text` | character classes, decimal digit strings, the case-insensitive "login" test |
| `timestamp.dfy` | `Timestamp` | `datetime.strptime` with the API's format: lexer, calendar checks, rendering, round trips |
| `timestamp_examples.dfy` | `TimestampExamples` | concrete timestamps and what they parse to |
| `python.dfy` | `Python` | decoded JSON values, exceptions, subscripting, `dict.get`, `int()`, truthiness |
| `coordinator.dfy` | `Coordinator` | one poll and its properties |
| `coordinator_examples.dfy` | `CoordinatorExamples` | concrete polls |
| `config_flow.dfy` | `ConfigFlow` | the setup check and the user step |
| `sensor.dfy` | `Sensor` | identities, readings, icons, attributes |
| `end_to_end.dfy` | `EndToEnd` | a doubly encoded answer followed through to what the sensors show |

## How the system is modelled

- **Values.** A Python value produced by `json` decoding is the datatype `Python.Value`. `Time` stands for the `datetime` the poll stores.
  - A Python exception is a `PyError`.
  - Raising is an `Err` of a `Result`.
  - An exception that nothing catches shows up as `Coordinator.Fault.Unhandled` or `ConfigFlow.FlowResult.Aborted`.
- **Parameters in place of I/O.**
  - The HTTP body, as decoded by `r.json()`, is a parameter. `None` means `r.json()` raised.
  - `json.loads` is the parameter `loads`; `None` means it raised `JSONDecodeError`.
  - The setup dialog's POST is the parameter `post`, from the credentials sent to the decoded body.
- **Timestamps.** The model of `strptime` accepts exactly the texts CPython's `_strptime` accepts, for ASCII digits. It gets there by a different route. CPython's field patterns build the ranges in (`1[0-2]|0[1-9]|[1-9]` for `%m`). The model lexes looser fields and checks the ranges afterwards:
  - `%m`, `%I`, `%M` and `%S` are lexed as one or two digits;
  - `%d` also accepts a space followed by one digit;
  - `%Y` takes exactly four digits;
  - a space in the format matches any run of `str.isspace` characters;
  - `%p` is AM or PM in any letter case.

  The values are then checked the way `strptime` and `datetime` check them: month, day of month (including leap years), 12-hour clock, minutes and seconds 0-59, and a year of at least 1.
- **Quirks of the code the model keeps as written.**
  - A bare object under `DeviceResponse` is not wrapped into a one-element list. The loop iterates over its keys and fails (`NonListPayload`, `BareRecordPoll`).
  - A non-string `LastUpdate` makes `strptime` raise a `TypeError` that the `(ValueError, KeyError)` handler does not catch.
  - A record that already carries `last_update` keeps it when its `LastUpdate` does not parse.
  - `validate_input` reads the four fields before it tests `data` for emptiness. `InvalidAuth` is therefore never raised, and `CannotConnect` is never raised at all. A rejected answer (`False`) or an empty list ends as the "unknown" error, not "invalid_auth" (`ValidateNeverDeclaredErrors`, `FailedCheckIsUnknown`).

## Model

| member | source | states |
|---|---|---|
| Text.Occurs | custom_components/ecofrog/coordinator.py:57 | substring test: true exactly when the pattern occurs at some position of the text |
| Text.MentionsLoginIff | custom_components/ecofrog/coordinator.py:57 | the login heuristic fires exactly when some five-character window of the response, ignoring ASCII case, spells "login" |
| Timestamp.DaysInMonth | custom_components/ecofrog/coordinator.py:75-77 | exactly April, June, September and November have 30 days; February alone has 29 or fewer, and 29 exactly in leap years; every other month has 31 |
| Timestamp.YearLength | custom_components/ecofrog/coordinator.py:75-77 | the month lengths add up to 366 days in a leap year and 365 otherwise |
| Timestamp.Lex | custom_components/ecofrog/coordinator.py:75-77 | a text the format's pattern accepts is cut into well-formed lexemes that spell exactly that text |
| Timestamp.LexUnlex | custom_components/ecofrog/coordinator.py:75-77 | the lexer recovers every well-formed stamp from its spelling: a lexing round trip |
| Timestamp.Hour24Bijective | custom_components/ecofrog/coordinator.py:75-77 | `%I` with `%p` maps clock-face hour and AM/PM one-to-one onto the hours 0-23: 12 AM is 0, 12 PM is 12 |
| Timestamp.Decode | custom_components/ecofrog/coordinator.py:75-77 | a decoded stamp is a valid `datetime` whose fields are the stamp's numbers, with the hour on the right side of noon |
| Timestamp.Parse | custom_components/ecofrog/coordinator.py:75-77 | whatever parses is a valid date and time |
| Timestamp.ParseRender | custom_components/ecofrog/coordinator.py:75-77 | every valid date and time, written with any padding, whitespace and AM/PM case the format admits, parses back to itself |
| Timestamp.ParseOnlyRenders | custom_components/ecofrog/coordinator.py:75-77 | conversely, every text that parses is one of those writings of the time it parses to |
| TimestampExamples.AfternoonExample | custom_components/ecofrog/coordinator.py:75-77 | "3/4/2023 1:02:03 PM" is 2023-03-04 13:02:03 |
| TimestampExamples.MidnightExample | custom_components/ecofrog/coordinator.py:75-77 | 12 AM is hour 0 |
| TimestampExamples.NoonExample | custom_components/ecofrog/coordinator.py:75-77 | 12 PM (lower case) is hour 12 |
| TimestampExamples.PaddedExample | custom_components/ecofrog/coordinator.py:75-77 | zero- and space-padded fields and a run of whitespace are accepted |
| TimestampExamples.LeapDayExample | custom_components/ecofrog/coordinator.py:75-77 | February 29th 2024 parses |
| TimestampExamples.NoLeapDayExample | custom_components/ecofrog/coordinator.py:75-77 | February 29th 2023 is refused |
| TimestampExamples.CenturyNoLeapDayExample | custom_components/ecofrog/coordinator.py:75-77 | February 29th 1900 is refused |
| TimestampExamples.ThirteenthMonthExample | custom_components/ecofrog/coordinator.py:75-77 | month 13 is refused |
| TimestampExamples.AprilThirtyFirstExample | custom_components/ecofrog/coordinator.py:75-77 | April 31st is refused |
| TimestampExamples.HourZeroExample | custom_components/ecofrog/coordinator.py:75-77 | hour 0 is not on the 12-hour clock |
| TimestampExamples.LeapSecondExample | custom_components/ecofrog/coordinator.py:75-77 | second 60 is refused |
| TimestampExamples.YearZeroExample | custom_components/ecofrog/coordinator.py:75-77 | year 0000 is refused |
| Python.ToInt | custom_components/ecofrog/sensor.py:139 | `int()` keeps ints, maps bools to 0/1, reads integer strings and raises ValueError for other strings and TypeError for other types |
| Python.ParseShowInt | custom_components/ecofrog/sensor.py:139 | `int()` reads back every integer as Python prints it |
| Python.ParseIntShape | custom_components/ecofrog/sensor.py:139 | every string `int()` accepts is an optional sign and the zero-padded digits of its value |
| Coordinator.Unwrap | custom_components/ecofrog/coordinator.py:49-67 | the payload is the `DeviceResponse` of the response, decoded once more when it is a string; an undecodable string mentioning login is an auth failure carrying the text; other string failures are update failures; object failures are unhandled |
| Coordinator.Enrich | custom_components/ecofrog/coordinator.py:73-79 | a record keeps all its fields, gains the flag, which is set exactly when its `LastUpdate` parses, and gains `last_update` with the parsed time only then; only a non-string `LastUpdate` raises |
| Coordinator.EnrichAll | custom_components/ecofrog/coordinator.py:72-79 | a list of records is enriched element by element, keeping length and order; it fails exactly when some element is not an enrichable record |
| Coordinator.Iterate | custom_components/ecofrog/coordinator.py:72-73 | the loop succeeds on a list of enrichable records, an empty dict or an empty string, and fails with TypeError otherwise |
| Coordinator.Update | custom_components/ecofrog/coordinator.py:44-82 | a poll fails with an auth failure exactly for undecodable string answers mentioning login, and with an update failure exactly for the other string answers without a payload; a list payload of any length polls successfully exactly when every record is a dict whose `LastUpdate` is absent or text |
| Coordinator.DoubleEncodingTransparent | custom_components/ecofrog/coordinator.py:49-67 | a doubly encoded answer polls to exactly what the decoded object polls to |
| Coordinator.NonListPayload | custom_components/ecofrog/coordinator.py:72-73 | a payload that is not a list is not wrapped: empty dicts and strings pass through, anything else fails with TypeError |
| Coordinator.PollStampsEveryRecord | custom_components/ecofrog/coordinator.py:68-79 | a poll of a list payload, of any length, succeeds exactly when every record is enrichable; a successful one keeps every record in order, each one that record enriched with all its fields, and flags and stamps each one according to its `LastUpdate` |
| Coordinator.FlagMeansRendered | custom_components/ecofrog/coordinator.py:73-79 | the flag is set exactly when `LastUpdate` is a writing of a valid date and time in the API's format, and then `last_update` holds that time |
| Coordinator.EnrichIdempotent | custom_components/ecofrog/coordinator.py:73-79 | enriching an enriched record changes nothing |
| CoordinatorExamples.SingleRecordPoll | custom_components/ecofrog/coordinator.py:66-82 | a plain answer holding one enrichable record polls to that record enriched |
| CoordinatorExamples.OneRecordPoll | custom_components/ecofrog/coordinator.py:72-79 | a record stamped "3/4/2023 1:02:03 PM" gets that time and a set flag, its other fields untouched |
| CoordinatorExamples.UnreadableRecordPoll | custom_components/ecofrog/coordinator.py:74-79 | a record stamped with a date that does not exist only gets a cleared flag |
| CoordinatorExamples.MissingStampPoll | custom_components/ecofrog/coordinator.py:74-79 | a record without `LastUpdate` gets a cleared flag and no error |
| CoordinatorExamples.NumericStampPoll | custom_components/ecofrog/coordinator.py:75-78 | a numeric `LastUpdate` makes the poll fail with an unhandled TypeError |
| CoordinatorExamples.BareRecordPoll | custom_components/ecofrog/coordinator.py:72-73 | a bare record under `DeviceResponse` makes the poll fail with an unhandled TypeError |
| CoordinatorExamples.LoginComplaintPoll | custom_components/ecofrog/coordinator.py:56-58 | an undecodable answer "Please LogIn again" is an auth failure carrying that text |
| CoordinatorExamples.GarbagePoll | custom_components/ecofrog/coordinator.py:56-61 | an undecodable answer not mentioning login is an update failure |
| ConfigFlow.TestAuth | custom_components/ecofrog/config_flow.py:45-58 | the setup check raises only when the body is not JSON |
| ConfigFlow.TestAuthAgreesWithPoll | custom_components/ecofrog/config_flow.py:49-58 | the setup check returns the payload a poll would unwrap, and `False` wherever a poll would fail |
| ConfigFlow.ValidateInput | custom_components/ecofrog/config_flow.py:79-90 | validation succeeds exactly when the input holds the four fields and the API answered; it asks the API about exactly those four values and returns the check's result unchanged; it fails only with KeyError or a JSON decode error |
| ConfigFlow.ErrorKey | custom_components/ecofrog/config_flow.py:115-121 | each exception has its own form error: "cannot_connect" exactly for `CannotConnect`, "invalid_auth" exactly for `InvalidAuth`, "unknown" exactly for any other exception |
| ConfigFlow.ValidateNeverDeclaredErrors | custom_components/ecofrog/config_flow.py:79-90 | every validation failure is reported as "unknown" |
| ConfigFlow.Lead | custom_components/ecofrog/config_flow.py:107-108 | a list answer stands for its first element; an empty list fails |
| ConfigFlow.StepUser | custom_components/ecofrog/config_flow.py:92-127 | no input shows the empty form; a missing or non-string device id escapes; an error is shown as exactly one "unknown" `base` error; a created entry keeps every input field and is titled by the default title over the unchanged input or by the `DeviceName` it stores |
| ConfigFlow.FailedCheckIsUnknown | custom_components/ecofrog/config_flow.py:105-121 | a `False` or empty-list answer shows the "unknown" error |
| ConfigFlow.EntryIffRecord | custom_components/ecofrog/config_flow.py:103-123 | an entry is created exactly when the answer or its first element is a record; the title is its `DeviceName`, also stored, or else the default title |
| ConfigFlow.NamedDeviceExample | custom_components/ecofrog/config_flow.py:103-123 | an answer naming the device "Garden" creates an entry titled "Garden" that stores the name |
| ConfigFlow.UnnamedDeviceExample | custom_components/ecofrog/config_flow.py:103-123 | an unnamed device's entry is titled "EcoFrog 42" |
| Sensor.EntityIdentity | custom_components/ecofrog/sensor.py:60-72 | the unique id is "ecofrog", the device id and the kind's suffix; the device name is the stored `DeviceName` or "Ecofrog " and the device id; a missing or non-string device id raises |
| Sensor.UniqueIdInjective | custom_components/ecofrog/sensor.py:62 | two sensors share a unique id only if they are the same kind of the same device |
| Sensor.Entities | custom_components/ecofrog/sensor.py:38-44 | the identities of the five entities, one per kind in creation order: a missing or non-string device id raises, otherwise unique ids are pairwise distinct and all name one device |
| Sensor.Reading | custom_components/ecofrog/sensor.py:138-139 | an integer sensor's reading is exactly `int()` of its field when the indexed record is a dict holding the field, and otherwise fails with the error subscripting raises: KeyError for a missing field or dict data, IndexError past the end of the list, TypeError for a record that is not a dict or data that cannot be subscripted; ValueError only from `int()` itself |
| Sensor.InitialState | custom_components/ecofrog/sensor.py:78-79 | a sensor created over empty data starts unknown; over non-empty data it starts with its reading when that reads, and raises its error otherwise |
| Sensor.CreatedState | custom_components/ecofrog/sensor.py:78-79 | any kind's constructor over non-empty data raises exactly when its read does, the battery's `float()` read included; over empty data nothing is read |
| Sensor.CreatedStates | custom_components/ecofrog/sensor.py:38-44 | constructors run in order: all succeed with their states, or the error is that of the first read that raises |
| Sensor.Setup | custom_components/ecofrog/sensor.py:36-46 | setup adds five entities exactly when the device id is a string and every constructor's init-time read succeeds; a bad device id raises the first constructor's error, otherwise the error is the first failing read's; the entities carry their identities, distinct unique ids and initial states |
| Sensor.FractionalVolumeAbortsSetup | custom_components/ecofrog/sensor.py:78-79 | a volume of "1.5" aborts setup with a ValueError |
| Sensor.CreatedIconsAgree | custom_components/ecofrog/sensor.py:207-219 | right after a setup over non-empty data, the percentage sensor's icon from its initial state equals the volume sensor's icon |
| Sensor.LadderBands | custom_components/ecofrog/sensor.py:207-219 | unknown is the tank icon; 85 and up full gauge, 30-84 gauge, 15-29 low gauge, below 15 empty gauge |
| Sensor.LadderMonotone | custom_components/ecofrog/sensor.py:207-219 | a fuller tank never draws an emptier gauge |
| Sensor.VolumeIcon | custom_components/ecofrog/sensor.py:142-157 | the volume icon raises exactly for a missing record, a record without `.get`, or text data; data that cannot be indexed, and percentages that are missing, of the wrong type or unreadable text, show the tank; a readable one shows its gauge |
| Sensor.PercentIcon | custom_components/ecofrog/sensor.py:207-219 | the percentage icon is the tank exactly when the state is unknown |
| Sensor.IconsAgree | custom_components/ecofrog/sensor.py:142-157 | after an update whose percentage reads, the volume and percentage sensors draw the same icon |
| Sensor.ExtraAttributes | custom_components/ecofrog/sensor.py:100-114 | the attributes are `last_update`, `last_update_successful` and `medium`, each exactly when the record holds a non-null value for it, with that value, and nothing else |
| Sensor.AttributesAfterPoll | custom_components/ecofrog/sensor.py:100-114 | after a successful poll the first record's attributes carry its flag and, when it parsed, its time |
| EndToEnd.DoublyEncodedTank | custom_components/ecofrog/coordinator.py:49-82 | a doubly encoded one-tank answer polls to readings 120, 200, 60 and 68, attributes with the parsed time and a set flag, and the middle gauge icon |

## Left out

- HTTP transport: `requests.post` and the request envelope are parameters (`post`, the decoded body). The model starts from what `r.json()` returned.
- Full JSON text parsing is the parameter `loads`. JSON numbers are integers only, because floating point is out of scope.
- `DataUpdateCoordinator` scheduling, single-flight, retry and subscriber notification are left out: they live in Home Assistant, not in this code. So is `async_add_executor_job`.
- `Battery._get_value` is modelled only for the errors it raises at creation (`Sensor.CreatedState`): which values `float()` refuses is the parameter `floatError`, and the voltage itself is not modelled, because floating point is out of scope.
- Timestamp.Parse: digits are ASCII digits only, although `\d` in CPython's pattern also matches other Unicode decimal digits; `%p` is the C locale's AM/PM only.
- Voluptuous schema checking, `async_show_form` beyond its errors, `async_write_ha_state`, logging and `DeviceInfo` beyond the name are left out as UI and framework glue. So is `update_before_add`.
- `_handle_coordinator_update` is left out. Its state is the `Reading` of the new data; Home Assistant handles an exception raised there.
- Text.MentionsLoginIff: `str.casefold` is modelled as ASCII lower-casing, so non-ASCII case folds that produce "login" are not modelled.
- Python.ToInt: `int()` also accepts surrounding whitespace, underscores between digits and non-ASCII decimal digits; the model reads only an optional sign and ASCII digits.
- Python.Index: an integer subscript of a dict is always a KeyError, because a decoded JSON object has string keys only.
- Dict key order is not modelled (maps are unordered), so the order of the extra attributes is not stated.

=== FILE: config_flow.dfy ===
/**
 The integration's setup dialog: `test_auth` asks the cloud API about the
 entered credentials, `validate_input` wraps it, and `async_step_user`
 turns the answer into either a new config entry (titled after the
 device) or the form again with one error.

 The HTTP POST is the parameter `post`, which maps the credentials sent to
 what `r.json()` returned (`None` when it raised); `json.loads` is the
 parameter `loads` as in the coordinator.
 */
module ConfigFlow {
  import opened Results
  import opened Python
  import opened Coordinator

  /** The four fields of the `DeviceRequest` the API is asked about. */
  datatype Credentials = Credentials(username: Value, email: Value, securityStamp: Value, deviceId: Value)

  /** The exceptions the step maps to form errors. */
  datatype FlowError =
    | CannotConnect
    | InvalidAuth
    | Other(error: PyError)

  /** What the step shows next. */
  datatype FlowResult =
    | ShowForm(errors: map<string, string>)                 // the form, with `errors` under their field
    | CreateEntry(title: Value, data: map<string, Value>)   // a config entry is created
    | Aborted(error: PyError)                               // an exception escapes the step

  /** The user-input keys the request is built from, in the order sent. */
  const UsernameKey := "username"
  const EmailKey := "email"
  const SecurityStampKey := "securitystamp"
  const DeviceKey := "deviceid"
  /** The answer field that names the device, also stored into the entry. */
  const NameKey := "DeviceName"

  /**
   config_flow.py:45-58: the `DeviceResponse` of the (possibly doubly encoded)
   answer, or `False` when decoding or the lookup fails. Only `r.json()`
   itself can raise.
   */
  function TestAuth(body: Option<Value>, loads: string -> Option<Value>): (r: Result<Value, PyError>)
    ensures r.Err? <==> body.None?
    ensures r.Err? ==> r.error == JsonDecodeError
  {
    match body
    case None => Err(JsonDecodeError)
    case Some(Str(text)) =>
      (match loads(text)
       case None => Ok(Bool(false))
       case Some(decoded) => (match Item(decoded, ResponseKey) case Ok(payload) => Ok(payload) case Err(_) => Ok(Bool(false))))
    case Some(response) =>
      (match Item(response, ResponseKey) case Ok(payload) => Ok(payload) case Err(_) => Ok(Bool(false)))
  }

  /** Does the user input hold all four request fields? */
  predicate HasCredentials(data: map<string, Value>) {
    UsernameKey in data && EmailKey in data && SecurityStampKey in data && DeviceKey in data
  }

  /**
   config_flow.py:79-90: read the four fields, ask the API, and (as written) test
   the user input rather than the answer for emptiness.
   */
  function ValidateInput(data: map<string, Value>, post: Credentials -> Option<Value>,
                         loads: string -> Option<Value>): (r: Result<Value, FlowError>)
    ensures r.Ok? <==> HasCredentials(data) && post(Credentials(data[UsernameKey], data[EmailKey], data[SecurityStampKey], data[DeviceKey])).Some?
    ensures r.Ok? ==> r.value == TestAuth(post(Credentials(data[UsernameKey], data[EmailKey], data[SecurityStampKey], data[DeviceKey])), loads).value
    ensures r.Err? ==> r.error == Other(KeyError) || r.error == Other(JsonDecodeError)
  {
    if !HasCredentials(data) then Err(Other(KeyError))
    else
      var answer := TestAuth(post(Credentials(data[UsernameKey], data[EmailKey], data[SecurityStampKey], data[DeviceKey])), loads);
      match answer
      case Err(e) => Err(Other(e))
      case Ok(authData) => if data == map[] then Err(InvalidAuth) else Ok(authData)
  }

  /** config_flow.py:115-121: the form error each exception is reported as. */
  function ErrorKey(e: FlowError): (r: string)
    ensures r in {"cannot_connect", "invalid_auth", "unknown"}
    ensures r == "unknown" <==> e.Other?
    ensures r == "cannot_connect" <==> e == CannotConnect
    ensures r == "invalid_auth" <==> e == InvalidAuth
  {
    match e
    case CannotConnect => "cannot_connect"
    case InvalidAuth => "invalid_auth"
    case Other(_) => "unknown"
  }

  /** config_flow.py:107-108: a list answer stands for its first element. */
  function Lead(info: Value): (r: Result<Value, PyError>)
    ensures !info.List? ==> r == Ok(info)
    ensures info.List? ==> (r.Ok? <==> info.items != [])
    ensures info.List? && r.Ok? ==> r.value == info.items[0]
  {
    if info.List? then Index(info, 0) else Ok(info)
  }

  /** The title a device gets when the answer does not name it. */
  function DefaultTitle(deviceId: string): string {
    "EcoFrog " + deviceId
  }

  /** config_flow.py:92-127: one submission of the form (or its first display when `userInput` is `None`). */
  function StepUser(userInput: Option<map<string, Value>>, post: Credentials -> Option<Value>,
                    loads: string -> Option<Value>): (r: FlowResult)
    ensures userInput.None? ==> r == ShowForm(map[])
    ensures r.Aborted? <==> userInput.Some? && !(DeviceKey in userInput.value && userInput.value[DeviceKey].Str?)
    ensures userInput.Some? && r.ShowForm? ==> r.errors == map["base" := "unknown"]
    ensures r.CreateEntry? ==> userInput.Some? && userInput.value.Keys <= r.data.Keys
    ensures r.CreateEntry? ==> forall k | k in userInput.value && k != NameKey :: r.data[k] == userInput.value[k]
    ensures r.CreateEntry? ==> (r.title == Str(DefaultTitle(userInput.value[DeviceKey].s)) && r.data == userInput.value)
                                || (NameKey in r.data && r.data[NameKey] == r.title)
  {
    match userInput
    case None => ShowForm(map[])
    case Some(input) =>
      if DeviceKey !in input then Aborted(KeyError)
      else if !input[DeviceKey].Str? then Aborted(TypeError)
      else
        var title := Str(DefaultTitle(input[DeviceKey].s));
        match ValidateInput(input, post, loads)
        case Err(e) => ShowForm(map["base" := ErrorKey(e)])
        case Ok(info) =>
          match Lead(info)
          case Err(_) => ShowForm(map["base" := ErrorKey(Other(IndexError))])
          case Ok(device) =>
            match Item(device, NameKey)
            case Ok(name) => CreateEntry(name, input[NameKey := name])
            case Err(KeyError) => CreateEntry(title, input)
            case Err(e) => ShowForm(map["base" := ErrorKey(Other(e))])
  }

  // ---------------------------------------------------------------------
  // Properties of the setup dialog

  /**
   The setup check reads the API exactly as a poll does, except that every
   failure a poll would report becomes `False`.
   */
  lemma TestAuthAgreesWithPoll(response: Value, loads: string -> Option<Value>)
    ensures TestAuth(Some(response), loads) ==
              (if Unwrap(response, loads).Ok? then Ok(Unwrap(response, loads).value) else Ok(Bool(false)))
  {
  }

  /** `validate_input` never raises the two errors it declares: every failure is "unknown". */
  lemma ValidateNeverDeclaredErrors(data: map<string, Value>, post: Credentials -> Option<Value>,
                                    loads: string -> Option<Value>)
    ensures ValidateInput(data, post, loads).Err? ==> ErrorKey(ValidateInput(data, post, loads).error) == "unknown"
  {
  }

  /**
   A rejected or unreadable answer (`False`) and an empty list both end as
   the "unknown" error rather than "invalid_auth".
   */
  lemma FailedCheckIsUnknown(input: map<string, Value>, post: Credentials -> Option<Value>,
                             loads: string -> Option<Value>)
    requires DeviceKey in input && input[DeviceKey].Str?
    requires ValidateInput(input, post, loads) == Ok(Bool(false)) || ValidateInput(input, post, loads) == Ok(List([]))
    ensures StepUser(Some(input), post, loads) == ShowForm(map["base" := "unknown"])
  {
  }

  /**
   An entry is created exactly when the answer (or its first element) is a
   record; it is titled by its `DeviceName`, which is also stored, or by
   the default title when it has none.
   */
  lemma {:induction false} EntryIffRecord(input: map<string, Value>, post: Credentials -> Option<Value>,
                                          loads: string -> Option<Value>)
    requires DeviceKey in input && input[DeviceKey].Str?
    ensures var r := StepUser(Some(input), post, loads);
      var info := ValidateInput(input, post, loads);
      && (r.CreateEntry? <==> info.Ok? && Lead(info.value).Ok? && Lead(info.value).value.Dict?)
      && (r.CreateEntry? && NameKey in Lead(info.value).value.fields ==>
            var name := Lead(info.value).value.fields[NameKey];
            r == CreateEntry(name, input[NameKey := name]))
      && (r.CreateEntry? && NameKey !in Lead(info.value).value.fields ==>
            r == CreateEntry(Str(DefaultTitle(input[DeviceKey].s)), input))
  {
  }

  /** The user's four entries, as the form collects them. */
  function Entered(deviceId: string): map<string, Value> {
    map[UsernameKey := Str("frog"), EmailKey := Str("frog@example.org"),
        SecurityStampKey := Str("secret"), DeviceKey := Str(deviceId)]
  }

  /** A named device becomes an entry titled by its name, which is stored as well. */
  lemma NamedDeviceExample(loads: string -> Option<Value>, post: Credentials -> Option<Value>)
    requires forall c :: post(c) == Some(Dict(map[ResponseKey := List([Dict(map[NameKey := Str("Garden")])])]))
    ensures StepUser(Some(Entered("42")), post, loads) ==
              CreateEntry(Str("Garden"), Entered("42")[NameKey := Str("Garden")])
  {
  }

  /** An unnamed device gets the default title and the input unchanged. */
  lemma UnnamedDeviceExample(loads: string -> Option<Value>, post: Credentials -> Option<Value>)
    requires forall c :: post(c) == Some(Dict(map[ResponseKey := Dict(map[])]))
    ensures StepUser(Some(Entered("42")), post, loads) == CreateEntry(Str("EcoFrog 42"), Entered("42"))
  {
  }
}

=== FILE: coordinator.dfy ===
/**
 One poll of the EcoFrog cloud API (`EcoFrogUpdateCoordinator._update_ecofrog`):
 undo the API's occasional double JSON encoding, pick the `DeviceResponse`
 payload, and stamp every record with `last_update_successful` and, when its
 `LastUpdate` text parses, `last_update`.

 The HTTP POST is not modelled: the operation starts from what `r.json()`
 returned (`None` when the body is not JSON). `json.loads` is the parameter
 `loads`, which answers `None` when the text is not JSON.
 */
module Coordinator {
  import opened Results
  import opened Text
  import opened Timestamp
  import opened Python

  /** The key under which the API nests its answer. */
  const ResponseKey := "DeviceResponse"
  /** The record field holding the reading's time as text. */
  const StampKey := "LastUpdate"
  /** The fields the coordinator adds to every record. */
  const FlagKey := "last_update_successful"
  const TimeKey := "last_update"

  /** How a poll fails, as the coordinator's caller sees it. */
  datatype Fault =
    | AuthFailed(message: string)   // ConfigEntryAuthFailed: the API answered with a login complaint
    | UpdateFailed(cause: PyError)   // UpdateFailed raised from the doubly encoded branch
    | Unhandled(error: PyError)      // any other exception escaping the poll

  /** Does `payload` hold an answer under `DeviceResponse`? */
  predicate Answers(payload: Value) {
    payload.Dict? && ResponseKey in payload.fields
  }

  /**
   coordinator.py:49-67: a string response is decoded once more and its
   `DeviceResponse` taken; any other response is subscripted directly.
   */
  function Unwrap(response: Value, loads: string -> Option<Value>): (r: Result<Value, Fault>)
    ensures r.Ok? <==> (if response.Str? then loads(response.s).Some? && Answers(loads(response.s).value)
                        else Answers(response))
    ensures r.Ok? && response.Str? ==> r.value == loads(response.s).value.fields[ResponseKey]
    ensures r.Ok? && !response.Str? ==> r.value == response.fields[ResponseKey]
    ensures r.Err? && r.error.AuthFailed? <==>
              response.Str? && loads(response.s).None? && MentionsLogin(response.s)
    ensures r.Err? && r.error.AuthFailed? ==> r.error.message == response.s
    ensures r.Err? && r.error.UpdateFailed? ==> response.Str?
    ensures r.Err? && r.error.Unhandled? ==> !response.Str?
  {
    match response
    case Str(text) =>
      (match loads(text)
       case None =>
         if MentionsLogin(text) then Err(AuthFailed(text)) else Err(UpdateFailed(JsonDecodeError))
       case Some(decoded) =>
         (match Item(decoded, ResponseKey)
          case Ok(payload) => Ok(payload)
          case Err(e) => Err(UpdateFailed(e))))
    case _ =>
      (match Item(response, ResponseKey)
       case Ok(payload) => Ok(payload)
       case Err(e) => Err(Unhandled(e)))
  }

  /** The time a record's `LastUpdate` text denotes, if it has a readable one. */
  function StampOf(record: map<string, Value>): Option<DateTime> {
    if StampKey in record && record[StampKey].Str? then Parse(record[StampKey].s) else None
  }

  /** A record the loop body gets through: `strptime` is only ever handed a string. */
  predicate Enrichable(datum: Value) {
    datum.Dict? && (StampKey in datum.fields ==> datum.fields[StampKey].Str?)
  }

  /**
   coordinator.py:73-79, the loop body for one record: set the flag, then try to
   parse `LastUpdate`; a missing key or unparsable text clears the flag, a
   non-string value makes `strptime` raise a TypeError nobody catches.
   */
  function Enrich(record: map<string, Value>): (r: Result<map<string, Value>, PyError>)
    ensures r.Ok? <==> Enrichable(Dict(record))
    ensures r.Err? ==> r.error == TypeError
    ensures r.Ok? ==> r.value.Keys == record.Keys + {FlagKey} + (if StampOf(record).Some? then {TimeKey} else {})
    ensures r.Ok? ==> r.value[FlagKey] == Bool(StampOf(record).Some?)
    ensures r.Ok? && StampOf(record).Some? ==> r.value[TimeKey] == Time(StampOf(record).value)
    ensures r.Ok? ==> forall k | k in record && k != FlagKey && (k == TimeKey ==> StampOf(record).None?) ::
                        r.value[k] == record[k]
  {
    var marked := record[FlagKey := Bool(true)];
    if StampKey !in record then Ok(marked[FlagKey := Bool(false)])
    else
      match record[StampKey]
      case Str(text) =>
        (match Parse(text)
         case Some(t) => Ok(marked[TimeKey := Time(t)])
         case None => Ok(marked[FlagKey := Bool(false)]))
      case _ => Err(TypeError)
  }

  /** The loop body applied to one element of the payload; only dicts accept item assignment. */
  function EnrichItem(datum: Value): Result<Value, PyError> {
    match datum
    case Dict(record) => (match Enrich(record) case Ok(m) => Ok(Dict(m)) case Err(e) => Err(e))
    case _ => Err(TypeError)
  }

  /** coordinator.py:72-79 over a list payload: every record in order, stopping at the first exception. */
  function EnrichAll(items: seq<Value>): (r: Result<seq<Value>, PyError>)
    ensures r.Ok? <==> forall i | 0 <= i < |items| :: Enrichable(items[i])
    ensures r.Err? ==> r.error == TypeError
    ensures r.Ok? ==> |r.value| == |items|
    ensures r.Ok? ==> forall i | 0 <= i < |items| :: r.value[i] == Dict(Enrich(items[i].fields).value)
  {
    if items == [] then Ok([])
    else
      var head :- EnrichItem(items[0]);
      var tail :- EnrichAll(items[1..]);
      Ok([head] + tail)
  }

  /**
   `for datum in data` on whatever the payload is: a list yields its
   elements, a dict its keys and a string its characters — neither of which
   accepts item assignment — and anything else is not iterable.
   */
  function Iterate(data: Value): (r: Result<Value, PyError>)
    ensures r.Ok? <==> match data
                       case List(items) => forall i | 0 <= i < |items| :: Enrichable(items[i])
                       case Dict(m) => m == map[]
                       case Str(s) => s == []
                       case _ => false
    ensures r.Err? ==> r.error == TypeError
    ensures r.Ok? && !data.List? ==> r.value == data
    ensures r.Ok? && data.List? ==> r.value.List? && |r.value.items| == |data.items|
  {
    match data
    case List(items) => (match EnrichAll(items) case Ok(out) => Ok(List(out)) case Err(e) => Err(e))
    case Dict(m) => if m == map[] then Ok(data) else Err(TypeError)
    case Str(s) => if s == [] then Ok(data) else Err(TypeError)
    case _ => Err(TypeError)
  }

  /**
   coordinator.py:43-82, one whole poll from the decoded HTTP body (`None` when
   `r.json()` raised) to the records handed to the sensors.
   */
  function Update(body: Option<Value>, loads: string -> Option<Value>): (r: Result<Value, Fault>)
    ensures body.None? ==> r == Err(Unhandled(JsonDecodeError))
    ensures r.Err? && r.error.AuthFailed? <==>
              body.Some? && body.value.Str? && loads(body.value.s).None? && MentionsLogin(body.value.s)
    ensures r.Err? && r.error.UpdateFailed? <==>
              && body.Some? && body.value.Str?
              && !(loads(body.value.s).Some? && Answers(loads(body.value.s).value))
              && !(loads(body.value.s).None? && MentionsLogin(body.value.s))
    ensures r.Err? && r.error.Unhandled? ==> r.error.error in {JsonDecodeError, KeyError, TypeError}
    ensures r.Ok? && r.value.List? ==> forall i | 0 <= i < |r.value.items| :: r.value.items[i].Dict?
    ensures body.Some? && Unwrap(body.value, loads).Ok? && Unwrap(body.value, loads).value.List? ==>
              (r.Ok? <==> forall i | 0 <= i < |Unwrap(body.value, loads).value.items| ::
                            Enrichable(Unwrap(body.value, loads).value.items[i]))
  {
    match body
    case None => Err(Unhandled(JsonDecodeError))
    case Some(response) =>
      var data :- Unwrap(response, loads);
      match Iterate(data)
      case Ok(out) => Ok(out)
      case Err(e) => Err(Unhandled(e))
  }

  // ---------------------------------------------------------------------
  // Properties of a poll

  /**
   The workaround for the double encoding is transparent: a response that
   is the JSON text of an answering object yields exactly what that object
   itself would have yielded.
   */
  lemma DoubleEncodingTransparent(text: string, loads: string -> Option<Value>)
    requires loads(text).Some? && Answers(loads(text).value)
    ensures Update(Some(Str(text)), loads) == Update(loads(text), loads)
  {
  }

  /**
   Unlike a bare object, a payload that is not a list is not wrapped into
   one: an empty dict or string passes through untouched, anything else
   fails the loop.
   */
  lemma NonListPayload(response: Value, loads: string -> Option<Value>)
    requires Unwrap(response, loads).Ok? && !Unwrap(response, loads).value.List?
    ensures var payload := Unwrap(response, loads).value;
      Update(Some(response), loads) ==
        (if payload == Dict(map[]) || payload == Str([]) then Ok(payload) else Err(Unhandled(TypeError)))
  {
  }

  /**
   A poll of a list payload succeeds exactly when every record is
   enrichable, however many records there are. It then returns one record
   per input record, in order, each keeping its fields and carrying a flag
   that says whether its `LastUpdate` was read, with the time read under
   `last_update`.
   */
  lemma {:induction false} PollStampsEveryRecord(response: Value, loads: string -> Option<Value>)
    requires Unwrap(response, loads).Ok? && Unwrap(response, loads).value.List?
    ensures Update(Some(response), loads).Ok? <==>
              forall i | 0 <= i < |Unwrap(response, loads).value.items| :: Enrichable(Unwrap(response, loads).value.items[i])
    ensures Update(Some(response), loads).Ok? ==>
      var records := Unwrap(response, loads).value.items;
      var out := Update(Some(response), loads).value;
      && out.List? && |out.items| == |records|
      && forall i | 0 <= i < |records| ::
           && records[i].Dict? && out.items[i].Dict?
           && records[i].fields.Keys <= out.items[i].fields.Keys
           && Enrich(records[i].fields).Ok? && out.items[i] == Dict(Enrich(records[i].fields).value)
           && out.items[i].fields[FlagKey] == Bool(StampOf(records[i].fields).Some?)
           && (StampOf(records[i].fields).Some? ==>
                 out.items[i].fields[TimeKey] == Time(StampOf(records[i].fields).value))
  {
    var records := Unwrap(response, loads).value.items;
    var enriched := EnrichAll(records);
    if Update(Some(response), loads).Ok? {
      assert enriched.Ok?;
      forall i | 0 <= i < |records|
        ensures records[i].Dict? && Enrich(records[i].fields).Ok?
      {
        assert Enrichable(records[i]);
      }
    }
  }

  /**
   The flag a record ends up with is set exactly when its `LastUpdate` is
   the rendering of a valid date and time in the API's format, and then
   `last_update` holds that time.
   */
  lemma {:induction false} FlagMeansRendered(record: map<string, Value>)
    requires Enrichable(Dict(record))
    ensures var out := Enrich(record).value;
      out[FlagKey] == Bool(true) <==>
        StampKey in record &&
        exists t: DateTime, layout: Layout :: Valid(t) && Fits(layout) && record[StampKey].s == Unlex(Render(t, layout))
    ensures forall t: DateTime, layout: Layout |
              StampKey in record && Valid(t) && Fits(layout) && record[StampKey].s == Unlex(Render(t, layout)) ::
              Enrich(record).value[TimeKey] == Time(t)
  {
    if StampKey in record {
      var text := record[StampKey].s;
      if Parse(text).Some? {
        ParseOnlyRenders(text);
      }
      forall t: DateTime, layout: Layout | Valid(t) && Fits(layout) && text == Unlex(Render(t, layout))
        ensures Parse(text) == Some(t)
      {
        ParseRender(t, layout);
      }
    }
  }

  /** Enriching a record a second time changes nothing. */
  lemma EnrichIdempotent(record: map<string, Value>)
    requires Enrichable(Dict(record))
    ensures Enrich(record).Ok? && Enrich(Enrich(record).value) == Enrich(record)
  {
    var once := Enrich(record).value;
    assert StampOf(once) == StampOf(record);
    assert Enrichable(Dict(once));
    var twice := Enrich(once).value;
    assert twice == once by {
      assert twice.Keys == once.Keys;
      forall k | k in twice
        ensures twice[k] == once[k]
      {
      }
    }
  }
}

=== FILE: coordinator_examples.dfy ===
/** Concrete polls of the coordinator. */
module CoordinatorExamples {
  import opened Results
  import opened Text
  import opened Timestamp
  import opened TimestampExamples
  import opened Python
  import opened Coordinator

  /** A plain answer holding a list of one readable record yields that record enriched. */
  lemma {:induction false} SingleRecordPoll(record: map<string, Value>, loads: string -> Option<Value>)
    requires Enrichable(Dict(record))
    ensures Update(Some(Dict(map[ResponseKey := List([Dict(record)])])), loads) ==
              Ok(List([Dict(Enrich(record).value)]))
  {
    var response := Dict(map[ResponseKey := List([Dict(record)])]);
    assert Unwrap(response, loads) == Ok(List([Dict(record)]));
    var out := EnrichAll([Dict(record)]);
    assert out.Ok? && out.value == [Dict(Enrich(record).value)];
  }

  /** A plain answer with one record gets the parsed time and a set flag, nothing else changes. */
  lemma OneRecordPoll(text: string, loads: string -> Option<Value>)
    requires text == "3/4/2023 1:02:03 PM"
    ensures var record := map[StampKey := Str(text), "ActualVolume" := Int(1200)];
      Update(Some(Dict(map[ResponseKey := List([Dict(record)])])), loads) ==
        Ok(List([Dict(record[FlagKey := Bool(true)][TimeKey := Time(DateTime(2023, 3, 4, 13, 2, 3))])]))
  {
    var record := map[StampKey := Str(text), "ActualVolume" := Int(1200)];
    AfternoonExample(text);
    assert StampOf(record) == Some(DateTime(2023, 3, 4, 13, 2, 3));
    SingleRecordPoll(record, loads);
  }

  /** A record whose date does not exist keeps its fields and only gets a cleared flag. */
  lemma UnreadableRecordPoll(text: string, loads: string -> Option<Value>)
    requires text == "2/29/2023 12:00:00 AM"
    ensures var record := map[StampKey := Str(text)];
      Update(Some(Dict(map[ResponseKey := List([Dict(record)])])), loads) ==
        Ok(List([Dict(record[FlagKey := Bool(false)])]))
  {
    var record := map[StampKey := Str(text)];
    NoLeapDayExample(text);
    assert StampOf(record) == None;
    SingleRecordPoll(record, loads);
    assert Enrich(record).value == record[FlagKey := Bool(false)];
  }

  /** A record without `LastUpdate` is still returned, flagged as not updated. */
  lemma MissingStampPoll(loads: string -> Option<Value>)
    ensures Update(Some(Dict(map[ResponseKey := List([Dict(map[])])])), loads) ==
              Ok(List([Dict(map[FlagKey := Bool(false)])]))
  {
    SingleRecordPoll(map[], loads);
    assert Enrich(map[]).value == map[FlagKey := Bool(false)];
  }

  /** A numeric `LastUpdate` is handed to `strptime`, whose TypeError escapes the poll. */
  lemma NumericStampPoll(loads: string -> Option<Value>)
    ensures Update(Some(Dict(map[ResponseKey := List([Dict(map[StampKey := Int(0)])])])), loads) ==
              Err(Unhandled(TypeError))
  {
  }

  /** A bare record (not in a list) is iterated over its keys and fails. */
  lemma BareRecordPoll(loads: string -> Option<Value>)
    ensures Update(Some(Dict(map[ResponseKey := Dict(map["ActualVolume" := Int(1)])])), loads) ==
              Err(Unhandled(TypeError))
  {
    assert "ActualVolume" in map["ActualVolume" := Int(1)];
  }

  /** A non-JSON string answer that mentions logging in is an authentication failure. */
  lemma LoginComplaintPoll(text: string, loads: string -> Option<Value>)
    requires text == "Please LogIn again"
    requires loads(text).None?
    ensures Update(Some(Str(text)), loads) == Err(AuthFailed(text))
  {
    assert OccursAt("login", Lowered(text), 7);
  }

  /** Any other non-JSON string answer is an update failure. */
  lemma GarbagePoll(text: string, loads: string -> Option<Value>)
    requires text == "Server busy"
    requires loads(text).None?
    ensures Update(Some(Str(text)), loads) == Err(UpdateFailed(JsonDecodeError))
  {
    var low := Lowered(text);
    forall i: nat ensures !OccursAt("login", low, i) {
      if i + 5 <= |low| {
        assert low[i] != 'l';
        assert low[i..i + 5][0] == low[i];
      }
    }
  }
}

=== FILE: end_to_end.dfy ===
/**
 One poll followed through to what the sensors show: the API answers with
 a doubly encoded list holding one tank, whose numbers arrive as strings.
 */
module EndToEnd {
  import opened Results
  import opened Timestamp
  import opened TimestampExamples
  import opened Python
  import opened Coordinator
  import opened CoordinatorExamples
  import opened Sensor

  /** The tank record as the API sends it. */
  function TankRecord(stamp: string): map<string, Value> {
    map["ActualVolume" := Str("120"), "MaxVolume" := Str("200"), "ActualVolumePercent" := Str("60"),
        "Battery" := Str("3.6"), "Temperature" := Str("68"), StampKey := Str(stamp)]
  }

  lemma ReadsNumbers(volume: string, max: string, percent: string, temperature: string)
    requires volume == "120" && max == "200" && percent == "60" && temperature == "68"
    ensures ParseInt(volume) == Some(120) && ParseInt(max) == Some(200)
    ensures ParseInt(percent) == Some(60) && ParseInt(temperature) == Some(68)
  {
    DecimalValueOfShort(volume[..2]);
    assert volume[..2][..1] == volume[..1];
    DecimalValueOfShort(max[..2]);
    DecimalValueOfShort(percent);
    DecimalValueOfShort(temperature);
  }

  /** The record after the poll: flagged and stamped, every reported field as sent. */
  function PolledTank(stamp: string): map<string, Value> {
    TankRecord(stamp)[FlagKey := Bool(true)][TimeKey := Time(DateTime(2023, 3, 4, 13, 2, 3))]
  }

  lemma EnrichedTank(stamp: string)
    requires stamp == "3/4/2023 1:02:03 PM"
    ensures Enrich(TankRecord(stamp)) == Ok(PolledTank(stamp))
  {
    AfternoonExample(stamp);
    assert StampOf(TankRecord(stamp)) == Some(DateTime(2023, 3, 4, 13, 2, 3));
  }

  /** An integer sensor reading the first record of a one-record list. */
  lemma ReadingOfText(record: map<string, Value>, kind: SensorKind, text: string, n: int)
    requires Integral(kind) && Field(kind) in record && record[Field(kind)] == Str(text)
    requires ParseInt(text) == Some(n)
    ensures Reading(List([Dict(record)]), RecordIndex, kind) == Ok(n)
  {
  }

  lemma TankVolumeReading(stamp: string)
    ensures Reading(List([Dict(PolledTank(stamp))]), RecordIndex, Volume) == Ok(120)
  {
    ReadsNumbers("120", "200", "60", "68");
    assert PolledTank(stamp)["ActualVolume"] == Str("120");
    ReadingOfText(PolledTank(stamp), Volume, "120", 120);
  }

  lemma TankMaxVolumeReading(stamp: string)
    ensures Reading(List([Dict(PolledTank(stamp))]), RecordIndex, MaxVolume) == Ok(200)
  {
    ReadsNumbers("120", "200", "60", "68");
    assert PolledTank(stamp)["MaxVolume"] == Str("200");
    ReadingOfText(PolledTank(stamp), MaxVolume, "200", 200);
  }

  lemma TankFullReading(stamp: string)
    ensures Reading(List([Dict(PolledTank(stamp))]), RecordIndex, Full) == Ok(60)
  {
    ReadsNumbers("120", "200", "60", "68");
    assert PolledTank(stamp)["ActualVolumePercent"] == Str("60");
    ReadingOfText(PolledTank(stamp), Full, "60", 60);
  }

  lemma TankTemperatureReading(stamp: string)
    ensures Reading(List([Dict(PolledTank(stamp))]), RecordIndex, Temperature) == Ok(68)
  {
    ReadsNumbers("120", "200", "60", "68");
    assert PolledTank(stamp)["Temperature"] == Str("68");
    ReadingOfText(PolledTank(stamp), Temperature, "68", 68);
  }

  lemma TankReadings(data: Value, stamp: string)
    requires data == List([Dict(PolledTank(stamp))])
    ensures Reading(data, RecordIndex, Volume) == Ok(120)
    ensures Reading(data, RecordIndex, MaxVolume) == Ok(200)
    ensures Reading(data, RecordIndex, Full) == Ok(60)
    ensures Reading(data, RecordIndex, Temperature) == Ok(68)
  {
    TankVolumeReading(stamp);
    TankMaxVolumeReading(stamp);
    TankFullReading(stamp);
    TankTemperatureReading(stamp);
  }

  lemma TankAttributes(data: Value, stamp: string)
    requires data == List([Dict(PolledTank(stamp))])
    ensures ExtraAttributes(data, RecordIndex) ==
              Ok(map["last_update" := Time(DateTime(2023, 3, 4, 13, 2, 3)), "last_update_successful" := Bool(true)])
  {
    assert "Medium" !in PolledTank(stamp);
    var attributes := ExtraAttributes(data, RecordIndex).value;
    assert attributes.Keys == {"last_update", "last_update_successful"};
  }

  lemma TankIcon(data: Value, stamp: string)
    requires data == List([Dict(PolledTank(stamp))])
    ensures VolumeIcon(data, RecordIndex) == Ok(Gauge)
  {
    TankReadings(data, stamp);
    IconsAgree(data, RecordIndex);
    LadderBands(60);
  }

  /**
   A doubly encoded answer holding one tank polls to one record whose
   integer sensors read 120, 200, 60 and 68, whose attributes carry the
   parsed time and a set flag, and whose volume icon is the middle gauge.
   */
  lemma DoublyEncodedTank(text: string, stamp: string, loads: string -> Option<Value>)
    requires stamp == "3/4/2023 1:02:03 PM"
    requires loads(text) == Some(Dict(map[ResponseKey := List([Dict(TankRecord(stamp))])]))
    ensures Update(Some(Str(text)), loads).Ok?
    ensures var data := Update(Some(Str(text)), loads).value;
      && Reading(data, RecordIndex, Volume) == Ok(120)
      && Reading(data, RecordIndex, MaxVolume) == Ok(200)
      && Reading(data, RecordIndex, Full) == Ok(60)
      && Reading(data, RecordIndex, Temperature) == Ok(68)
      && ExtraAttributes(data, RecordIndex) ==
           Ok(map["last_update" := Time(DateTime(2023, 3, 4, 13, 2, 3)), "last_update_successful" := Bool(true)])
      && VolumeIcon(data, RecordIndex) == Ok(Gauge)
  {
    DoubleEncodingTransparent(text, loads);
    SingleRecordPoll(TankRecord(stamp), loads);
    EnrichedTank(stamp);
    var data := List([Dict(PolledTank(stamp))]);
    TankReadings(data, stamp);
    TankAttributes(data, stamp);
    TankIcon(data, stamp);
  }
}

=== FILE: python.dfy ===
/**
 The slice of Python's object model the integration touches: the values
 `json` decoding produces (plus the `datetime` the coordinator stores into
 records), the exceptions the code raises or catches, and the built-in
 operations it applies to them — subscripting, `dict.get`, `int()` and
 truthiness.
 */
module Python {
  import opened Results
  import opened Text
  import opened Timestamp

  /**
   A Python value as found in decoded responses and coordinator records.
   JSON numbers are modelled as integers only; `Time` never comes out of
   `json`, it is what the coordinator stores under `last_update`.
   */
  datatype Value =
    | Null
    | Bool(b: bool)
    | Int(i: int)
    | Str(s: string)
    | List(items: seq<Value>)
    | Dict(fields: map<string, Value>)
    | Time(t: DateTime)

  /** The exception classes the code raises, catches or lets escape. */
  datatype PyError =
    | KeyError
    | IndexError
    | TypeError
    | ValueError
    | AttributeError
    | JsonDecodeError

  /** `v[key]` with a string key: only a dict holding the key answers. */
  function Item(v: Value, key: string): (r: Result<Value, PyError>)
    ensures r.Ok? <==> v.Dict? && key in v.fields
    ensures r.Ok? ==> r.value == v.fields[key]
    ensures r.Err? ==> (r.error == KeyError <==> v.Dict?)
    ensures r.Err? ==> r.error in {KeyError, TypeError}
  {
    match v
    case Dict(m) => if key in m then Ok(m[key]) else Err(KeyError)
    case _ => Err(TypeError)
  }

  /** `v[index]` with a non-negative integer index. */
  function Index(v: Value, index: nat): (r: Result<Value, PyError>)
    ensures v.List? && index < |v.items| ==> r == Ok(v.items[index])
    ensures v.List? && index >= |v.items| ==> r == Err(IndexError)
    ensures v.Dict? ==> r == Err(KeyError)
    ensures r.Ok? ==> v.List? || v.Str?
  {
    match v
    case List(items) => if index < |items| then Ok(items[index]) else Err(IndexError)
    case Str(s) => if index < |s| then Ok(Str([s[index]])) else Err(IndexError)
    // A dict decoded from JSON has string keys only, so an integer key is never found.
    case Dict(_) => Err(KeyError)
    case _ => Err(TypeError)
  }

  /** `d.get(key)` on a dict: the value under the key, `None` when absent. */
  function DictGet(fields: map<string, Value>, key: string): Value {
    if key in fields then fields[key] else Null
  }

  /** `v.get(key)`: only dicts have the method. */
  function Get(v: Value, key: string): (r: Result<Value, PyError>)
    ensures r.Ok? <==> v.Dict?
    ensures v.Dict? && key in v.fields ==> r == Ok(v.fields[key])
    ensures v.Dict? && key !in v.fields ==> r == Ok(Null)
    ensures r.Err? ==> r.error == AttributeError
  {
    match v
    case Dict(m) => Ok(DictGet(m, key))
    case _ => Err(AttributeError)
  }

  /** Python truthiness (`if v:`). */
  predicate Truthy(v: Value) {
    match v
    case Null => false
    case Bool(b) => b
    case Int(i) => i != 0
    case Str(s) => s != []
    case List(items) => items != []
    case Dict(m) => m != map[]
    case Time(_) => true
  }

  // ---------------------------------------------------------------------
  // int()

  /**
   The integer literal `int(text)` accepts, restricted to an optional sign
   followed by one or more ASCII digits (Python also allows surrounding
   whitespace, underscores between digits and other Unicode digits).
   */
  function ParseInt(text: string): (r: Option<int>)
  {
    if text != [] && (text[0] == '-' || text[0] == '+') then
      var digits := text[1..];
      if digits != [] && IsDigits(digits) then
        Some(if text[0] == '-' then -(DecimalValue(digits) as int) else DecimalValue(digits))
      else None
    else if text != [] && IsDigits(text) then Some(DecimalValue(text))
    else None
  }

  /** `str(n)` for an int. */
  function ShowInt(n: int): string {
    if n < 0 then "-" + Decimal(-n) else Decimal(n)
  }

  /** `text` is `sign` followed by the `width`-digit zero-padded spelling of `n`. */
  predicate Spells(text: string, sign: string, width: nat, n: int) {
    && (sign == "" || sign == "+" || sign == "-")
    && (sign == "-" ==> n <= 0) && (sign != "-" ==> n >= 0)
    && width >= 1
    && text == sign + Fixed(if n < 0 then -n else n, width)
  }

  /** int() reads back every non-negative integer Python prints. */
  lemma {:induction false} ParseShowNatural(n: nat)
    ensures ParseInt(Decimal(n)) == Some(n)
  {
    var d := Decimal(n);
    DecimalValueOfFixed(n, Width(n));
    assert d[0] != '-' && d[0] != '+' by { assert IsDigit(d[0]); }
  }

  /** int() reads back every integer Python prints. */
  lemma {:induction false} ParseShowInt(n: int)
    ensures ParseInt(ShowInt(n)) == Some(n)
  {
    if n < 0 {
      var d := Decimal(-n);
      DecimalValueOfFixed(-n, Width(-n));
      assert ShowInt(n)[1..] == d;
    } else {
      ParseShowNatural(n);
    }
  }

  /** A signed literal int() accepts is its sign followed by the digits of its magnitude. */
  lemma {:induction false} SignedShape(text: string)
    requires text != [] && (text[0] == '-' || text[0] == '+')
    requires ParseInt(text).Some?
    ensures Spells(text, [text[0]], |text| - 1, ParseInt(text).value)
  {
    var digits := text[1..];
    FixedOfDecimalValue(digits);
    assert text == [text[0]] + digits;
  }

  /** An unsigned literal int() accepts is the zero-padded digits of its value. */
  lemma {:induction false} UnsignedShape(text: string)
    requires text == [] || (text[0] != '-' && text[0] != '+')
    requires ParseInt(text).Some?
    ensures Spells(text, "", |text|, ParseInt(text).value)
  {
    FixedOfDecimalValue(text);
    assert text == "" + text;
  }

  /** Every text int() accepts is an optional sign and the digits of its value, possibly zero-padded. */
  lemma {:induction false} ParseIntShape(text: string)
    requires ParseInt(text).Some?
    ensures exists sign: string, width: nat :: Spells(text, sign, width, ParseInt(text).value)
  {
    if text != [] && (text[0] == '-' || text[0] == '+') {
      SignedShape(text);
    } else {
      UnsignedShape(text);
    }
  }

  /** `int(v)`: ints as they are, bools as 0/1, strings through ParseInt; everything else is a TypeError. */
  function ToInt(v: Value): (r: Result<int, PyError>)
    ensures v.Int? ==> r == Ok(v.i)
    ensures v.Bool? ==> r == Ok(if v.b then 1 else 0)
    ensures v.Str? ==> (r.Ok? <==> ParseInt(v.s).Some?)
    ensures v.Str? && r.Ok? ==> r.value == ParseInt(v.s).value
    ensures r.Err? ==> (r.error == ValueError <==> v.Str?)
    ensures r.Err? ==> r.error in {ValueError, TypeError}
    ensures !(v.Int? || v.Bool? || v.Str?) ==> r == Err(TypeError)
  {
    match v
    case Int(i) => Ok(i)
    case Bool(b) => Ok(if b then 1 else 0)
    case Str(s) => (match ParseInt(s) case Some(n) => Ok(n) case None => Err(ValueError))
    case _ => Err(TypeError)
  }
}

=== FILE: results.dfy ===
/**
 Failure-carrying wrappers shared by the whole model: `Option` for a value
 that may be absent and `Result` for a Python call that either returns a
 value or raises. Both can be used with `:-`.
 */
module Results {

  datatype Option<+T> = None | Some(value: T) {
    predicate IsFailure() { None? }

    function PropagateFailure<U>(): Option<U>
      requires None?
    {
      None
    }

    function Extract(): T
      requires Some?
    {
      value
    }
  }

  datatype Result<+T, +E> = Ok(value: T) | Err(error: E) {
    predicate IsFailure() { Err? }

    function PropagateFailure<U>(): Result<U, E>
      requires Err?
    {
      Err(error)
    }

    function Extract(): T
      requires Ok?
    {
      value
    }
  }
}

=== FILE: sensor.dfy ===
/**
 The sensor platform: the five entities created per config entry, their
 identifiers and device name, the integer readings they take from the
 coordinator's records, the two gauge icons and the extra attributes.
 `data` is always the coordinator's current data, whatever its shape.
 */
module Sensor {
  import opened Results
  import opened Python
  import opened Coordinator

  /** The five sensors of a tank, in the order they are created. */
  datatype SensorKind = Volume | MaxVolume | Full | Battery | Temperature

  /** sensor.py:38-44: every entry gets one entity of each kind, all reading record 0. */
  const Kinds: seq<SensorKind> := [Volume, MaxVolume, Full, Battery, Temperature]
  const RecordIndex: nat := 0

  /** The unique-id suffix each kind passes to the base constructor. */
  function Suffix(kind: SensorKind): string {
    match kind
    case Volume => "_volume"
    case MaxVolume => "_maxvolume"
    case Full => "_full"
    case Battery => "_battery"
    case Temperature => "_temperature"
  }

  /** The record field an integer sensor reports; the battery voltage is a float and is not modelled. */
  predicate Integral(kind: SensorKind) { kind != Battery }

  function Field(kind: SensorKind): string
    requires Integral(kind)
  {
    match kind
    case Volume => "ActualVolume"
    case MaxVolume => "MaxVolume"
    case Full => "ActualVolumePercent"
    case Temperature => "Temperature"
  }

  // ---------------------------------------------------------------------
  // Identity

  /** What an entity is known by: its unique id and the name of its device. */
  datatype Identity = Identity(uniqueId: string, deviceName: Value)

  function UniqueId(deviceId: string, kind: SensorKind): string {
    "ecofrog" + deviceId + Suffix(kind)
  }

  /**
   sensor.py:60-72: the unique id built from the stored `deviceid`, and the
   device name: the stored `DeviceName` (whatever it holds) or a default
   spelled with a lower-case f.
   */
  function EntityIdentity(conf: map<string, Value>, kind: SensorKind): (r: Result<Identity, PyError>)
    ensures r.Ok? <==> "deviceid" in conf && conf["deviceid"].Str?
    ensures r.Err? ==> (r.error == KeyError <==> "deviceid" !in conf) && r.error in {KeyError, TypeError}
    ensures r.Ok? ==> r.value.uniqueId == UniqueId(conf["deviceid"].s, kind)
    ensures r.Ok? && "DeviceName" in conf ==> r.value.deviceName == conf["DeviceName"]
    ensures r.Ok? && "DeviceName" !in conf ==> r.value.deviceName == Str("Ecofrog " + conf["deviceid"].s)
  {
    if "deviceid" !in conf then Err(KeyError)
    else
      match conf["deviceid"]
      case Str(deviceId) =>
        var name := if "DeviceName" in conf then conf["DeviceName"] else Str("Ecofrog " + deviceId);
        Ok(Identity(UniqueId(deviceId, kind), name))
      case _ => Err(TypeError)
  }

  /** `a + b == c + d` with `|b| <= |d|` makes `b` a suffix of `d`. */
  lemma SuffixOfEqualConcat(a: string, b: string, c: string, d: string)
    requires a + b == c + d && |b| <= |d|
    ensures d[|d| - |b|..] == b
  {
    var n := |a| + |b|;
    assert (a + b)[n - |b|..] == b;
    assert (c + d)[n - |b|..] == d[|d| - |b|..];
  }

  /** No kind's suffix ends another kind's suffix. */
  lemma SuffixesUnrelated(k1: SensorKind, k2: SensorKind)
    requires k1 != k2 && |Suffix(k1)| <= |Suffix(k2)|
    ensures Suffix(k2)[|Suffix(k2)| - |Suffix(k1)|..] != Suffix(k1)
  {
    var s1, s2 := Suffix(k1), Suffix(k2);
    // The suffixes have pairwise different lengths, and the longer one never has
    // an underscore where the shorter one would start.
    assert s1[0] == '_' && s2[|s2| - |s1|] != '_';
  }

  /** Unique ids never collide: one device's sensors differ, and different devices never share one. */
  lemma {:induction false} UniqueIdInjective(d1: string, k1: SensorKind, d2: string, k2: SensorKind)
    requires UniqueId(d1, k1) == UniqueId(d2, k2)
    ensures d1 == d2 && k1 == k2
  {
    var s1, s2 := Suffix(k1), Suffix(k2);
    assert ("ecofrog" + d1) + s1 == ("ecofrog" + d2) + s2;
    if k1 != k2 {
      if |s1| <= |s2| {
        SuffixOfEqualConcat("ecofrog" + d1, s1, "ecofrog" + d2, s2);
        SuffixesUnrelated(k1, k2);
      } else {
        SuffixOfEqualConcat("ecofrog" + d2, s2, "ecofrog" + d1, s1);
        SuffixesUnrelated(k2, k1);
      }
    }
    assert s1 == s2;
    assert |d1| == |d2|;
    assert "ecofrog" + d1 == ("ecofrog" + d1 + s1)[..7 + |d1|];
    assert "ecofrog" + d2 == ("ecofrog" + d2 + s2)[..7 + |d2|];
    assert d1 == ("ecofrog" + d1)[7..];
    assert d2 == ("ecofrog" + d2)[7..];
  }

  /**
   sensor.py:38-44 with sensor.py:60-72: the identities of the five entities of an
   entry, one per kind in creation order; their unique ids are pairwise
   distinct and they all name the same device.
   */
  function Entities(conf: map<string, Value>): (r: Result<seq<Identity>, PyError>)
    ensures r.Ok? <==> "deviceid" in conf && conf["deviceid"].Str?
    ensures r.Ok? ==> |r.value| == |Kinds|
    ensures r.Ok? ==> forall i | 0 <= i < |Kinds| :: EntityIdentity(conf, Kinds[i]) == Ok(r.value[i])
    ensures r.Ok? ==> forall i, j | 0 <= i < j < |Kinds| :: r.value[i].uniqueId != r.value[j].uniqueId
    ensures r.Ok? ==> forall i | 0 <= i < |Kinds| :: r.value[i].deviceName == r.value[0].deviceName
  {
    if "deviceid" in conf && conf["deviceid"].Str? then
      var ids := seq(|Kinds|, i requires 0 <= i < |Kinds| => EntityIdentity(conf, Kinds[i]).value);
      forall i, j | 0 <= i < j < |Kinds|
        ensures ids[i].uniqueId != ids[j].uniqueId
      {
        if ids[i].uniqueId == ids[j].uniqueId {
          UniqueIdInjective(conf["deviceid"].s, Kinds[i], conf["deviceid"].s, Kinds[j]);
        }
      }
      Ok(ids)
    else if "deviceid" !in conf then Err(KeyError)
    else Err(TypeError)
  }

  // ---------------------------------------------------------------------
  // Readings

  /** `int(data[idx][field])`: the value an integer sensor takes from the coordinator's data. */
  function Reading(data: Value, idx: nat, kind: SensorKind): (r: Result<int, PyError>)
    requires Integral(kind)
    ensures r.Ok? ==> data.List? && idx < |data.items| && data.items[idx].Dict? && Field(kind) in data.items[idx].fields
    ensures r.Ok? ==> ToInt(data.items[idx].fields[Field(kind)]) == Ok(r.value)
    ensures r.Err? ==> r.error in {IndexError, KeyError, TypeError, ValueError}
    ensures data.List? && idx < |data.items| && data.items[idx].Dict? && Field(kind) in data.items[idx].fields
            ==> r == ToInt(data.items[idx].fields[Field(kind)])
    ensures data.List? && idx < |data.items| && data.items[idx].Dict? && Field(kind) !in data.items[idx].fields
            ==> r == Err(KeyError)
    ensures r.Err? && r.error == ValueError
            ==> data.List? && idx < |data.items| && data.items[idx].Dict? && Field(kind) in data.items[idx].fields
    ensures data.List? && idx >= |data.items| ==> r == Err(IndexError)
    ensures data.List? && idx < |data.items| && !data.items[idx].Dict? ==> r == Err(TypeError)
    ensures data.Dict? ==> r == Err(KeyError)
    ensures !(data.List? || data.Dict? || data.Str?) ==> r == Err(TypeError)
  {
    var record :- Index(data, idx);
    var value :- Item(record, Field(kind));
    ToInt(value)
  }

  /** sensor.py:78-79: an entity's state when it is created; empty data leaves it unknown. */
  function InitialState(data: Value, idx: nat, kind: SensorKind): (r: Result<Option<int>, PyError>)
    requires Integral(kind)
    ensures !Truthy(data) ==> r == Ok(None)
    ensures r.Ok? && r.value.Some? ==> Truthy(data) && Reading(data, idx, kind) == Ok(r.value.value)
    ensures r.Err? ==> Truthy(data) && Reading(data, idx, kind).Err?
    ensures Truthy(data) && Reading(data, idx, kind).Ok? ==> r == Ok(Some(Reading(data, idx, kind).value))
  {
    if Truthy(data) then
      match Reading(data, idx, kind)
      case Ok(n) => Ok(Some(n))
      case Err(e) => Err(e)
    else Ok(None)
  }

  /**
   sensor.py:78-79 for any kind: the state a constructor leaves. The battery
   sensor reads `float(data[idx]["Battery"])`; its voltage is not modelled, so
   its state is left unknown here, and `floatError` gives the error `float()`
   raises for a value, if any.
   */
  function CreatedState(data: Value, idx: nat, kind: SensorKind, floatError: Value -> Option<PyError>)
    : (r: Result<Option<int>, PyError>)
    ensures !Truthy(data) ==> r == Ok(None)
    ensures Integral(kind) && Truthy(data) ==> (r.Ok? <==> Reading(data, idx, kind).Ok?)
    ensures Integral(kind) && r.Ok? && Truthy(data) ==> r.value == Some(Reading(data, idx, kind).value)
    ensures kind == Battery ==>
              (r.Err? <==> (Truthy(data) && !(data.List? && idx < |data.items| && data.items[idx].Dict?
                                             && "Battery" in data.items[idx].fields
                                             && floatError(data.items[idx].fields["Battery"]).None?)))
    ensures kind == Battery && r.Ok? ==> r.value.None?
  {
    if Integral(kind) then InitialState(data, idx, kind)
    else if !Truthy(data) then Ok(None)
    else
      var record :- Index(data, idx);
      var value :- Item(record, "Battery");
      match floatError(value)
      case Some(e) => Err(e)
      case None => Ok(None)
  }

  /**
   The constructors of `kinds` run one after another; the first read that
   raises ends the sequence with its error.
   */
  function CreatedStates(data: Value, idx: nat, kinds: seq<SensorKind>, floatError: Value -> Option<PyError>)
    : (r: Result<seq<Option<int>>, PyError>)
    ensures r.Ok? <==> forall i | 0 <= i < |kinds| :: CreatedState(data, idx, kinds[i], floatError).Ok?
    ensures r.Ok? ==> |r.value| == |kinds|
    ensures r.Ok? ==> forall i | 0 <= i < |kinds| :: CreatedState(data, idx, kinds[i], floatError) == Ok(r.value[i])
    ensures r.Err? ==> exists i | 0 <= i < |kinds| ::
              (CreatedState(data, idx, kinds[i], floatError) == Err(r.error)
               && forall j | 0 <= j < i :: CreatedState(data, idx, kinds[j], floatError).Ok?)
  {
    if kinds == [] then Ok([])
    else
      var first :- CreatedState(data, idx, kinds[0], floatError);
      var rest := CreatedStates(data, idx, kinds[1..], floatError);
      if rest.Err? then
        ghost var i :| 0 <= i < |kinds[1..]| && CreatedState(data, idx, kinds[1..][i], floatError) == Err(rest.error)
                       && (forall j | 0 <= j < i :: CreatedState(data, idx, kinds[1..][j], floatError).Ok?);
        assert CreatedState(data, idx, kinds[i + 1], floatError) == Err(rest.error);
        assert forall j | 0 <= j < i + 1 :: CreatedState(data, idx, kinds[j], floatError).Ok? by {
          forall j | 0 <= j < i + 1 ensures CreatedState(data, idx, kinds[j], floatError).Ok? {
            if j > 0 { assert kinds[j] == kinds[1..][j - 1]; }
          }
        }
        Err(rest.error)
      else
        assert forall i | 0 <= i < |kinds| :: CreatedState(data, idx, kinds[i], floatError).Ok? by {
          forall i | 0 <= i < |kinds| ensures CreatedState(data, idx, kinds[i], floatError).Ok? {
            if i > 0 { assert kinds[i] == kinds[1..][i - 1]; }
          }
        }
        Ok([first] + rest.value)
  }

  /** An entity as set up: who it is and the state it starts in. */
  datatype Entity = Entity(identity: Identity, state: Option<int>)

  /**
   sensor.py:36-46 with the constructor (sensor.py:54-81): the five entities
   of an entry in creation order. Each constructor first looks up `deviceid`
   and then, when the coordinator already has data, reads its value; the
   first of these that raises aborts the setup.
   */
  function Setup(conf: map<string, Value>, data: Value, floatError: Value -> Option<PyError>)
    : (r: Result<seq<Entity>, PyError>)
    ensures r.Ok? <==> "deviceid" in conf && conf["deviceid"].Str?
                       && forall i | 0 <= i < |Kinds| :: CreatedState(data, RecordIndex, Kinds[i], floatError).Ok?
    ensures !("deviceid" in conf && conf["deviceid"].Str?) ==> r == Err(EntityIdentity(conf, Kinds[0]).error)
    ensures r.Err? && "deviceid" in conf && conf["deviceid"].Str? ==>
              exists i | 0 <= i < |Kinds| ::
                (CreatedState(data, RecordIndex, Kinds[i], floatError) == Err(r.error)
                 && forall j | 0 <= j < i :: CreatedState(data, RecordIndex, Kinds[j], floatError).Ok?)
    ensures r.Ok? ==> |r.value| == |Kinds|
    ensures r.Ok? ==> forall i | 0 <= i < |Kinds| :: EntityIdentity(conf, Kinds[i]) == Ok(r.value[i].identity)
                         && CreatedState(data, RecordIndex, Kinds[i], floatError) == Ok(r.value[i].state)
    ensures r.Ok? ==> forall i, j | 0 <= i < j < |Kinds| :: r.value[i].identity.uniqueId != r.value[j].identity.uniqueId
    ensures "deviceid" in conf && conf["deviceid"].Str? && !Truthy(data) ==>
              r.Ok? && forall i | 0 <= i < |Kinds| :: r.value[i].state.None?
  {
    var ids :- Entities(conf);
    var states :- CreatedStates(data, RecordIndex, Kinds, floatError);
    Ok(seq(|Kinds|, i requires 0 <= i < |Kinds| => Entity(ids[i], states[i])))
  }

  /**
   A volume that `int()` cannot read, such as "1.5", aborts the setup with a
   ValueError at the first constructor, before any entity is added.
   */
  lemma FractionalVolumeAbortsSetup(conf: map<string, Value>, floatError: Value -> Option<PyError>)
    requires "deviceid" in conf && conf["deviceid"].Str?
    ensures Setup(conf, List([Dict(map["ActualVolume" := Str("1.5")])]), floatError) == Err(ValueError)
  {
    var data := List([Dict(map["ActualVolume" := Str("1.5")])]);
    assert ToInt(Str("1.5")) == Err(ValueError) by { FractionIsNoInt(); }
    assert CreatedState(data, RecordIndex, Kinds[0], floatError) == Err(ValueError);
  }

  lemma FractionIsNoInt()
    ensures ToInt(Str("1.5")) == Err(ValueError)
  {
    assert "1.5"[1] == '.';
  }

  // ---------------------------------------------------------------------
  // Icons

  const StorageTank := "mdi:storage-tank"
  const GaugeFull := "mdi:gauge-full"
  const Gauge := "mdi:gauge"
  const GaugeLow := "mdi:gauge-low"
  const GaugeEmpty := "mdi:gauge-empty"

  /** sensor.py:148-157 and sensor.py:210-219: the gauge drawn for a fill percentage, the tank when unknown. */
  function LadderIcon(percent: Option<int>): string {
    if percent.None? then StorageTank
    else if percent.value >= 85 then GaugeFull
    else if percent.value >= 30 then Gauge
    else if percent.value >= 15 then GaugeLow
    else GaugeEmpty
  }

  /** How full each icon draws the gauge. */
  function Level(icon: string): int {
    if icon == GaugeEmpty then 0
    else if icon == GaugeLow then 1
    else if icon == Gauge then 2
    else if icon == GaugeFull then 3
    else -1
  }

  /** The ladder's bands: each known percentage draws the gauge of its band. */
  lemma LadderBands(p: int)
    ensures 85 <= p ==> LadderIcon(Some(p)) == GaugeFull
    ensures 30 <= p < 85 ==> LadderIcon(Some(p)) == Gauge
    ensures 15 <= p < 30 ==> LadderIcon(Some(p)) == GaugeLow
    ensures p < 15 ==> LadderIcon(Some(p)) == GaugeEmpty
    ensures LadderIcon(None) == StorageTank && Level(StorageTank) == -1
  {
  }

  /** A fuller tank never draws an emptier gauge. */
  lemma LadderMonotone(p: int, q: int)
    requires p <= q
    ensures 0 <= Level(LadderIcon(Some(p))) <= Level(LadderIcon(Some(q))) <= 3
  {
  }

  /**
   sensor.py:142-157: the volume sensor's icon from the record's percentage;
   a missing key, wrong type or unreadable number shows the tank, but a
   missing record or a record without `.get` raises.
   */
  function VolumeIcon(data: Value, idx: nat): (r: Result<string, PyError>)
    ensures r.Err? ==> r.error in {IndexError, AttributeError}
    ensures r.Ok? ==> r.value == StorageTank || 0 <= Level(r.value) <= 3
    ensures Reading(data, idx, Full).Ok? ==> r == Ok(LadderIcon(Some(Reading(data, idx, Full).value)))
    ensures !data.List? && !data.Str? ==> r == Ok(StorageTank)
    ensures (data.List? && idx < |data.items| && data.items[idx].Dict?
             && ToInt(DictGet(data.items[idx].fields, "ActualVolumePercent")).Err?) ==> r == Ok(StorageTank)
    ensures r.Err? <==> (data.List? && (idx >= |data.items| || !data.items[idx].Dict?)) || data.Str?
    ensures (data.List? && idx < |data.items| && data.items[idx].Dict?
             && Field(Full) !in data.items[idx].fields) ==> r == Ok(StorageTank)
  {
    match Index(data, idx)
    case Err(IndexError) => Err(IndexError)
    case Err(_) => Ok(LadderIcon(None))
    case Ok(record) =>
      match Get(record, "ActualVolumePercent")
      case Err(e) => Err(e)
      case Ok(v) => Ok(LadderIcon(match ToInt(v) case Ok(n) => Some(n) case Err(_) => None))
  }

  /** sensor.py:207-219: the percentage sensor's icon from its own current state. */
  function PercentIcon(state: Option<int>): (r: string)
    ensures r == StorageTank <==> state.None?
  {
    LadderIcon(state)
  }

  /**
   After a coordinator update whose percentage reads, the volume and the
   percentage sensors draw the same icon.
   */
  lemma IconsAgree(data: Value, idx: nat)
    requires Reading(data, idx, Full).Ok?
    ensures VolumeIcon(data, idx) == Ok(PercentIcon(Some(Reading(data, idx, Full).value)))
  {
  }

  /**
   Entities created over data whose percentage reads start out agreeing: the
   percentage sensor's icon from its initial state is the volume sensor's icon.
   */
  lemma {:induction false} CreatedIconsAgree(conf: map<string, Value>, data: Value, floatError: Value -> Option<PyError>)
    requires Setup(conf, data, floatError).Ok? && Truthy(data)
    ensures VolumeIcon(data, RecordIndex) == Ok(PercentIcon(Setup(conf, data, floatError).value[2].state))
  {
    var entities := Setup(conf, data, floatError).value;
    assert Kinds[2] == Full;
    assert CreatedState(data, RecordIndex, Kinds[2], floatError) == Ok(entities[2].state);
    IconsAgree(data, RecordIndex);
  }

  // ---------------------------------------------------------------------
  // Attributes

  /** sensor.py:100-114: `last_update`, `last_update_successful` and `Medium` (as `medium`), each when set. */
  function ExtraAttributes(data: Value, idx: nat): (r: Result<map<string, Value>, PyError>)
    ensures r.Ok? <==> data.List? && idx < |data.items| && data.items[idx].Dict?
    ensures r.Err? ==> r.error in {IndexError, KeyError, TypeError, AttributeError}
    ensures r.Ok? ==> r.value.Keys <= {"last_update", "last_update_successful", "medium"}
    ensures r.Ok? ==> forall key | key in {"last_update", "last_update_successful"} ::
              (key in r.value <==> key in data.items[idx].fields && data.items[idx].fields[key] != Null)
              && (key in r.value ==> r.value[key] == data.items[idx].fields[key])
    ensures r.Ok? ==> ("medium" in r.value <==> "Medium" in data.items[idx].fields && data.items[idx].fields["Medium"] != Null)
    ensures r.Ok? && "medium" in r.value ==> r.value["medium"] == data.items[idx].fields["Medium"]
  {
    var record :- Index(data, idx);
    if !record.Dict? then Err(AttributeError)
    else
      var lastUpdate := DictGet(record.fields, "last_update");
      var successful := DictGet(record.fields, "last_update_successful");
      var medium := DictGet(record.fields, "Medium");
      var withTime := if lastUpdate != Null then map["last_update" := lastUpdate] else map[];
      var withFlag := if successful != Null then withTime["last_update_successful" := successful] else withTime;
      Ok(if medium != Null then withFlag["medium" := medium] else withFlag)
  }

  /**
   After a successful poll, the first record's attributes report whether
   its `LastUpdate` was read and, if so, the time read.
   */
  lemma {:induction false} AttributesAfterPoll(response: Value, loads: string -> Option<Value>)
    requires Unwrap(response, loads).Ok? && Unwrap(response, loads).value.List?
    requires Unwrap(response, loads).value.items != [] && Unwrap(response, loads).value.items[0].Dict?
    requires Update(Some(response), loads).Ok?
    ensures var record := Unwrap(response, loads).value.items[0].fields;
      var attributes := ExtraAttributes(Update(Some(response), loads).value, RecordIndex);
      && attributes.Ok?
      && attributes.value["last_update_successful"] == Bool(StampOf(record).Some?)
      && (StampOf(record).Some? ==> attributes.value["last_update"] == Time(StampOf(record).value))
  {
    PollStampsEveryRecord(response, loads);
  }
}

=== FILE: text.dfy ===
/**
 Character classes, decimal digit strings and the case-insensitive
 substring test used by the model. Only ASCII digits and ASCII letters
 are treated specially; whitespace follows Python's `str.isspace`.
 */
module Text {

  predicate IsDigit(c: char) { '0' <= c <= '9' }

  /** The characters Python's `str.isspace` (and so the regex `\s`) accepts. */
  predicate IsSpace(c: char) {
    var n := c as int;
    || n == 0x20 || 0x09 <= n <= 0x0D || 0x1C <= n <= 0x1F
    || n == 0x85 || n == 0xA0 || n == 0x1680 || 0x2000 <= n <= 0x200A
    || n == 0x2028 || n == 0x2029 || n == 0x202F || n == 0x205F || n == 0x3000
  }

  /** The character classes the lexers split on. */
  datatype CharClass = Digits | Spaces

  predicate InClass(c: char, k: CharClass) {
    match k
    case Digits => IsDigit(c)
    case Spaces => IsSpace(c)
  }

  predicate All(s: string, k: CharClass) {
    forall i :: 0 <= i < |s| ==> InClass(s[i], k)
  }

  predicate IsDigits(s: string) { All(s, Digits) }

  predicate IsSpaces(s: string) { All(s, Spaces) }

  /** A member of the class in front of a run keeps it a run. */
  lemma AllCons(c: char, s: string, k: CharClass)
    requires InClass(c, k) && All(s, k)
    ensures All([c] + s, k)
  {
    assert forall i | 1 <= i < |s| + 1 :: ([c] + s)[i] == s[i - 1];
  }

  /** A string cut in two: a leading field and what follows it. */
  datatype Cut = Cut(field: string, rest: string)

  /** Splits off the longest prefix of `s` whose characters all belong to class `k`. */
  function Span(s: string, k: CharClass): (r: Cut)
    ensures r.field + r.rest == s
    ensures All(r.field, k)
    ensures r.rest == [] || !InClass(r.rest[0], k)
  {
    if s != [] && InClass(s[0], k) then
      var c := Span(s[1..], k);
      assert [s[0]] + (c.field + c.rest) == s;
      AllCons(s[0], c.field, k);
      Cut([s[0]] + c.field, c.rest)
    else
      Cut([], s)
  }

  /** Span is determined by its result: a run followed by a non-member is what it splits off. */
  lemma {:induction false} SpanOfConcat(run: string, rest: string, k: CharClass)
    requires All(run, k)
    requires rest == [] || !InClass(rest[0], k)
    ensures Span(run + rest, k) == Cut(run, rest)
  {
    if run == [] {
      assert run + rest == rest;
    } else {
      assert (run + rest)[0] == run[0];
      assert (run + rest)[1..] == run[1..] + rest;
      SpanOfConcat(run[1..], rest, k);
      assert [run[0]] + run[1..] == run;
    }
  }

  function DigitValue(c: char): (d: nat)
    requires IsDigit(c)
    ensures d < 10
  {
    c as int - '0' as int
  }

  function DigitChar(d: nat): (c: char)
    requires d < 10
    ensures IsDigit(c) && DigitValue(c) == d
  {
    ('0' as int + d) as char
  }

  /** The number a string of decimal digits denotes (most significant first). */
  function DecimalValue(s: string): nat
    requires IsDigits(s)
    decreases |s|
  {
    if s == [] then 0 else DecimalValue(s[..|s| - 1]) * 10 + DigitValue(s[|s| - 1])
  }

  function Pow10(n: nat): (r: nat)
    ensures r >= 1
  {
    if n == 0 then 1 else 10 * Pow10(n - 1)
  }

  /** The last `width` decimal digits of `n`, zero-padded on the left. */
  function Fixed(n: nat, width: nat): (r: string)
    ensures |r| == width && IsDigits(r)
  {
    if width == 0 then [] else Fixed(n / 10, width - 1) + [DigitChar(n % 10)]
  }

  lemma {:induction false} DecimalValueBound(s: string)
    requires IsDigits(s)
    ensures DecimalValue(s) < Pow10(|s|)
  {
    if s != [] {
      DecimalValueBound(s[..|s| - 1]);
    }
  }

  /** Reading back a zero-padded rendering gives the number, when it fits the width. */
  lemma {:induction false} DecimalValueOfFixed(n: nat, width: nat)
    requires n < Pow10(width)
    ensures DecimalValue(Fixed(n, width)) == n
  {
    if width > 0 {
      var f := Fixed(n, width);
      assert f[..|f| - 1] == Fixed(n / 10, width - 1);
      DecimalValueOfFixed(n / 10, width - 1);
    }
  }

  /** Every digit string is the zero-padded rendering of its own value. */
  lemma {:induction false} FixedOfDecimalValue(s: string)
    requires IsDigits(s)
    ensures Fixed(DecimalValue(s), |s|) == s
  {
    if s != [] {
      var init := s[..|s| - 1];
      FixedOfDecimalValue(init);
      var n := DecimalValue(s);
      assert n / 10 == DecimalValue(init);
      assert n % 10 == DigitValue(s[|s| - 1]);
      assert init + [s[|s| - 1]] == s;
    }
  }

  /** The number of digits in the shortest decimal rendering of `n`. */
  function Width(n: nat): (w: nat)
    ensures 1 <= w && n < Pow10(w)
  {
    if n < 10 then 1 else Width(n / 10) + 1
  }

  /** The shortest decimal rendering of `n` (as Python's `str` of an int). */
  function Decimal(n: nat): string
  {
    Fixed(n, Width(n))
  }

  function AsciiLower(c: char): (r: char)
  {
    if 'A' <= c <= 'Z' then (c as int + 32) as char else c
  }

  /** ASCII-only stand-in for Python's `str.casefold`. */
  function Lowered(s: string): (r: string)
    ensures |r| == |s|
    ensures forall i :: 0 <= i < |s| ==> r[i] == AsciiLower(s[i])
  {
    seq(|s|, i requires 0 <= i < |s| => AsciiLower(s[i]))
  }

  predicate OccursAt(p: string, s: string, i: nat) {
    i + |p| <= |s| && s[i..i + |p|] == p
  }

  lemma OccursAtShift(p: string, s: string, j: nat)
    requires s != []
    ensures OccursAt(p, s[1..], j) <==> OccursAt(p, s, j + 1)
  {
    if j + 1 + |p| <= |s| {
      assert s[1..][j..j + |p|] == s[j + 1..j + 1 + |p|];
    }
  }

  /** Python's `p in s` for strings: some window of `s` equals `p`. */
  function Occurs(p: string, s: string): (r: bool)
    ensures r <==> exists i: nat :: OccursAt(p, s, i)
    decreases |s|
  {
    if |s| < |p| then
      false
    else if s[..|p|] == p then
      assert OccursAt(p, s, 0);
      true
    else
      assert !OccursAt(p, s, 0);
      var r := Occurs(p, s[1..]);
      if r then
        var i: nat :| OccursAt(p, s[1..], i);
        OccursAtShift(p, s, i);
        r
      else
        forall i: nat | 1 <= i ensures !OccursAt(p, s, i) {
          OccursAtShift(p, s, i - 1);
        }
        r
  }

  /** The auth-expiry heuristic: the case-folded text mentions "login". */
  predicate MentionsLogin(text: string) {
    Occurs("login", Lowered(text))
  }

  /** A window of five characters that lowers to "login". */
  predicate LoginWindow(text: string, i: nat) {
    i + 5 <= |text| && Lowered(text[i..i + 5]) == "login"
  }

  /** The heuristic fires exactly when some window of the text, in any mix of ASCII cases, spells "login". */
  lemma MentionsLoginIff(text: string)
    ensures MentionsLogin(text) <==> exists i: nat :: LoginWindow(text, i)
  {
    var low := Lowered(text);
    if MentionsLogin(text) {
      var i: nat :| OccursAt("login", low, i);
      assert Lowered(text[i..i + 5]) == low[i..i + 5];
      assert LoginWindow(text, i);
    }
    if exists i: nat :: LoginWindow(text, i) {
      var i: nat :| LoginWindow(text, i);
      assert low[i..i + 5] == Lowered(text[i..i + 5]);
      assert OccursAt("login", low, i);
    }
  }
}

=== FILE: timestamp.dfy ===
/**
 The timestamp the coordinator reads from a record's `LastUpdate` field:
 `datetime.strptime(text, "%m/%d/%Y %I:%M:%S %p")` in the C locale.

 Parsing is split in two layers. `Lex` cuts the text into lexemes;
 `Decode` turns them into numbers and makes the range checks. Together they
 accept exactly the texts CPython's `_strptime` accepts, for ASCII digits,
 though by a different route: CPython's field patterns build the ranges in
 (`1[0-2]|0[1-9]|[1-9]` for `%m`), while here the lexemes are looser and the
 ranges are checked afterwards. The lexemes:
   - `%m`, `%I`, `%M`, `%S` are one or two digits;
   - `%d` is one or two digits, or a space followed by one digit;
   - `%Y` is exactly four digits;
   - each space of the format matches one or more whitespace characters;
   - `%p` is `am` or `pm` in any letter case;
   - nothing may precede or follow.
 Digits are ASCII digits only (Python's regex would also take other Unicode
 decimal digits).
 */
module Timestamp {
  import opened Results
  import opened Text

  /** A naive `datetime` with zero microseconds. */
  datatype DateTime = DateTime(year: int, month: int, day: int, hour: int, minute: int, second: int)

  predicate IsLeapYear(year: int) {
    year % 4 == 0 && (year % 100 != 0 || year % 400 == 0)
  }

  function DaysInMonth(year: int, month: int): (n: int)
    requires 1 <= month <= 12
    ensures 28 <= n <= 31
    ensures month == 2 ==> (n == 29 <==> IsLeapYear(year))
    ensures n == 30 <==> month in {4, 6, 9, 11}
    ensures month == 2 <==> n <= 29
  {
    if month == 2 then (if IsLeapYear(year) then 29 else 28)
    else if month == 4 || month == 6 || month == 9 || month == 11 then 30
    else 31
  }

  /** The month lengths add up to the Gregorian year: 366 days in a leap year, 365 otherwise. */
  lemma YearLength(year: int)
    ensures DaysInMonth(year, 1) + DaysInMonth(year, 2) + DaysInMonth(year, 3) + DaysInMonth(year, 4)
            + DaysInMonth(year, 5) + DaysInMonth(year, 6) + DaysInMonth(year, 7) + DaysInMonth(year, 8)
            + DaysInMonth(year, 9) + DaysInMonth(year, 10) + DaysInMonth(year, 11) + DaysInMonth(year, 12)
            == if IsLeapYear(year) then 366 else 365
  {
  }

  /** The ranges Python's `datetime` constructor accepts. */
  predicate Valid(t: DateTime) {
    && 1 <= t.year <= 9999
    && 1 <= t.month <= 12
    && 1 <= t.day <= DaysInMonth(t.year, t.month)
    && 0 <= t.hour <= 23
    && 0 <= t.minute <= 59
    && 0 <= t.second <= 59
  }

  // ---------------------------------------------------------------------
  // Lexical layer

  /** The pieces of a text matching `%m/%d/%Y %I:%M:%S %p`, in order. */
  datatype Stamp = Stamp(month: string, day: string, year: string, gap1: string,
                         hour: string, minute: string, second: string, gap2: string,
                         marker: string)

  predicate IsShortNumber(s: string) { IsDigits(s) && 1 <= |s| <= 2 }

  predicate IsDayLexeme(s: string) {
    IsShortNumber(s) || (|s| == 2 && s[0] == ' ' && IsDigit(s[1]))
  }

  predicate IsGap(s: string) { s != [] && IsSpaces(s) }

  predicate IsMarker(s: string) {
    && |s| == 2
    && (s[0] == 'a' || s[0] == 'A' || s[0] == 'p' || s[0] == 'P')
    && (s[1] == 'm' || s[1] == 'M')
  }

  predicate WellFormed(st: Stamp) {
    && IsShortNumber(st.month)
    && IsDayLexeme(st.day)
    && IsDigits(st.year) && |st.year| == 4
    && IsGap(st.gap1)
    && IsShortNumber(st.hour)
    && IsShortNumber(st.minute)
    && IsShortNumber(st.second)
    && IsGap(st.gap2)
    && IsMarker(st.marker)
  }

  function DateText(month: string, day: string, year: string): string {
    month + ("/" + (day + ("/" + year)))
  }

  function ClockText(hour: string, minute: string, second: string): string {
    hour + (":" + (minute + (":" + second)))
  }

  /** The text a stamp was cut from. */
  function Unlex(st: Stamp): string {
    DateText(st.month, st.day, st.year)
      + (st.gap1 + (ClockText(st.hour, st.minute, st.second) + (st.gap2 + st.marker)))
  }

  function NumberField(s: string, lo: nat, hi: nat): (r: Option<Cut>)
    ensures r.Some? ==> r.value.field + r.value.rest == s
    ensures r.Some? ==> IsDigits(r.value.field) && lo <= |r.value.field| <= hi
  {
    var c := Span(s, Digits);
    if lo <= |c.field| <= hi then Some(c) else None
  }

  function Literal(s: string, c: char): (r: Option<string>)
    ensures r.Some? ==> s == [c] + r.value
  {
    if s != [] && s[0] == c then Some(s[1..]) else None
  }

  function DayField(s: string): (r: Option<Cut>)
    ensures r.Some? ==> r.value.field + r.value.rest == s && IsDayLexeme(r.value.field)
  {
    if s != [] && s[0] == ' ' then
      if |s| >= 2 && IsDigit(s[1]) then
        assert s[..2] + s[2..] == s;
        Some(Cut(s[..2], s[2..]))
      else
        None
    else
      NumberField(s, 1, 2)
  }

  function GapField(s: string): (r: Option<Cut>)
    ensures r.Some? ==> r.value.field + r.value.rest == s && IsGap(r.value.field)
  {
    var c := Span(s, Spaces);
    if c.field != [] then Some(c) else None
  }

  /** Three lexemes and the text after them. */
  datatype Triple = Triple(first: string, second: string, third: string, rest: string)

  /** `%m/%d/%Y` at the start of a text. */
  function LexDate(s: string): (r: Option<Triple>)
    ensures r.Some? ==> DateText(r.value.first, r.value.second, r.value.third) + r.value.rest == s
    ensures r.Some? ==> IsShortNumber(r.value.first) && IsDayLexeme(r.value.second)
                        && IsDigits(r.value.third) && |r.value.third| == 4
  {
    var month :- NumberField(s, 1, 2);
    var afterMonth :- Literal(month.rest, '/');
    var day :- DayField(afterMonth);
    var afterDay :- Literal(day.rest, '/');
    var year :- NumberField(afterDay, 4, 4);
    JoinFive(month.field, "/", day.field, "/", year.field, year.rest);
    Some(Triple(month.field, day.field, year.field, year.rest))
  }

  /** `%I:%M:%S` at the start of a text. */
  function LexClock(s: string): (r: Option<Triple>)
    ensures r.Some? ==> ClockText(r.value.first, r.value.second, r.value.third) + r.value.rest == s
    ensures r.Some? ==> IsShortNumber(r.value.first) && IsShortNumber(r.value.second)
                        && IsShortNumber(r.value.third)
  {
    var hour :- NumberField(s, 1, 2);
    var afterHour :- Literal(hour.rest, ':');
    var minute :- NumberField(afterHour, 1, 2);
    var afterMinute :- Literal(minute.rest, ':');
    var second :- NumberField(afterMinute, 1, 2);
    JoinFive(hour.field, ":", minute.field, ":", second.field, second.rest);
    Some(Triple(hour.field, minute.field, second.field, second.rest))
  }

  /** Appending to a right-nested concatenation of five pieces appends to its last piece. */
  lemma JoinFive(a: string, b: string, c: string, d: string, e: string, rest: string)
    ensures (a + (b + (c + (d + e))))  + rest == a + (b + (c + (d + (e + rest))))
  {
  }

  /** Cuts a text into the lexemes of the format; None when the format's regex does not match all of it. */
  function Lex(s: string): (r: Option<Stamp>)
    ensures r.Some? ==> WellFormed(r.value) && Unlex(r.value) == s
  {
    var date :- LexDate(s);
    var gap1 :- GapField(date.rest);
    var clock :- LexClock(gap1.rest);
    var gap2 :- GapField(clock.rest);
    if IsMarker(gap2.rest) then
      Some(Stamp(date.first, date.second, date.third, gap1.field, clock.first,
                 clock.second, clock.third, gap2.field, gap2.rest))
    else
      None
  }

  lemma SpaceIsNotDigit(c: char)
    requires IsSpace(c)
    ensures !IsDigit(c)
  {
  }

  lemma NumberFieldOfConcat(run: string, rest: string, lo: nat, hi: nat)
    requires IsDigits(run) && lo <= |run| <= hi
    requires rest == [] || !IsDigit(rest[0])
    ensures NumberField(run + rest, lo, hi) == Some(Cut(run, rest))
  {
    SpanOfConcat(run, rest, Digits);
  }

  lemma LiteralOfConcat(c: char, rest: string)
    ensures Literal([c] + rest, c) == Some(rest)
  {
    assert ([c] + rest)[1..] == rest;
  }

  lemma DayFieldOfConcat(day: string, rest: string)
    requires IsDayLexeme(day)
    requires rest != [] && rest[0] == '/'
    ensures DayField(day + rest) == Some(Cut(day, rest))
  {
    var s := day + rest;
    if day[0] == ' ' {
      assert s[..2] == day && s[2..] == rest;
    } else {
      assert s[0] == day[0];
      SpanOfConcat(day, rest, Digits);
    }
  }

  lemma {:induction false} LexDateText(month: string, day: string, year: string, rest: string)
    requires IsShortNumber(month) && IsDayLexeme(day) && IsDigits(year) && |year| == 4
    requires rest == [] || !IsDigit(rest[0])
    ensures LexDate(DateText(month, day, year) + rest) == Some(Triple(month, day, year, rest))
  {
    var tail3 := year + rest;
    var tail2 := "/" + tail3;
    var tail1 := day + tail2;
    var tail0 := "/" + tail1;
    assert DateText(month, day, year) + rest == month + tail0;
    NumberFieldOfConcat(month, tail0, 1, 2);
    LiteralOfConcat('/', tail1);
    DayFieldOfConcat(day, tail2);
    LiteralOfConcat('/', tail3);
    NumberFieldOfConcat(year, rest, 4, 4);
  }

  lemma {:induction false} LexClockText(hour: string, minute: string, second: string, rest: string)
    requires IsShortNumber(hour) && IsShortNumber(minute) && IsShortNumber(second)
    requires rest == [] || !IsDigit(rest[0])
    ensures LexClock(ClockText(hour, minute, second) + rest) == Some(Triple(hour, minute, second, rest))
  {
    var tail3 := second + rest;
    var tail2 := ":" + tail3;
    var tail1 := minute + tail2;
    var tail0 := ":" + tail1;
    assert ClockText(hour, minute, second) + rest == hour + tail0;
    NumberFieldOfConcat(hour, tail0, 1, 2);
    LiteralOfConcat(':', tail1);
    NumberFieldOfConcat(minute, tail2, 1, 2);
    LiteralOfConcat(':', tail3);
    NumberFieldOfConcat(second, rest, 1, 2);
  }

  /** Lexing undoes Unlex: every well-formed stamp is recovered from its text. */
  lemma {:induction false} LexUnlex(st: Stamp)
    requires WellFormed(st)
    ensures Lex(Unlex(st)) == Some(st)
  {
    var clock := ClockText(st.hour, st.minute, st.second);
    var afterClock := st.gap2 + st.marker;
    var afterGap1 := clock + afterClock;
    var afterDate := st.gap1 + afterGap1;
    assert afterDate[0] == st.gap1[0];
    SpaceIsNotDigit(st.gap1[0]);
    LexDateText(st.month, st.day, st.year, afterDate);
    assert afterGap1[0] == st.hour[0];
    SpanOfConcat(st.gap1, afterGap1, Spaces);
    assert afterClock[0] == st.gap2[0];
    SpaceIsNotDigit(st.gap2[0]);
    LexClockText(st.hour, st.minute, st.second, afterClock);
    assert st.marker[0] == (st.marker)[0];
    SpanOfConcat(st.gap2, st.marker, Spaces);
  }

  // ---------------------------------------------------------------------
  // Numeric layer

  function DayValue(d: string): nat
    requires IsDayLexeme(d)
  {
    if d[0] == ' ' then DigitValue(d[1]) else DecimalValue(d)
  }

  predicate IsPm(marker: string)
    requires IsMarker(marker)
  {
    marker[0] == 'p' || marker[0] == 'P'
  }

  /** `%I` with `%p`: 12 AM is hour 0, 12 PM is hour 12, other PM hours add 12. */
  function Hour24(hour12: int, pm: bool): int {
    if pm then (if hour12 == 12 then 12 else hour12 + 12)
    else (if hour12 == 12 then 0 else hour12)
  }

  /** The clock-face hour shown for a 24-hour hour. */
  function Hour12(hour: int): int
    requires 0 <= hour <= 23
  {
    if hour % 12 == 0 then 12 else hour % 12
  }

  /** Hour24 is a bijection from the clock face and meridiem onto the day's hours. */
  lemma Hour24Bijective(hour12: int, pm: bool, hour: int)
    requires 1 <= hour12 <= 12 && 0 <= hour <= 23
    ensures 0 <= Hour24(hour12, pm) <= 23
    ensures (Hour24(hour12, pm) >= 12) == pm
    ensures Hour24(hour12, pm) == hour <==> hour12 == Hour12(hour) && pm == (hour >= 12)
  {
  }

  /** Hour24 lands on the clock face it started from, on the right side of noon: the bijection at its own image. */
  lemma Hour24Inverse(hour12: int, pm: bool)
    requires 1 <= hour12 <= 12
    ensures 0 <= Hour24(hour12, pm) <= 23
    ensures Hour12(Hour24(hour12, pm)) == hour12 && (Hour24(hour12, pm) >= 12) == pm
  {
    Hour24Bijective(hour12, pm, Hour24(hour12, pm));
  }

  /** Turns lexemes into a date and time; None when a field is out of range for strptime or datetime. */
  function Decode(st: Stamp): (r: Option<DateTime>)
    requires WellFormed(st)
    ensures r.Some? ==> Valid(r.value)
    ensures r.Some? ==> r.value.year == DecimalValue(st.year) && r.value.month == DecimalValue(st.month)
                        && r.value.day == DayValue(st.day) && r.value.minute == DecimalValue(st.minute)
                        && r.value.second == DecimalValue(st.second)
                        && Hour12(r.value.hour) == DecimalValue(st.hour)
                        && (r.value.hour >= 12 <==> IsPm(st.marker))
  {
    var month := DecimalValue(st.month);
    var day := DayValue(st.day);
    DecimalValueBound(st.year);
    assert Pow10(|st.year|) == 10000;
    var year := DecimalValue(st.year);
    var hour := DecimalValue(st.hour);
    var minute := DecimalValue(st.minute);
    var second := DecimalValue(st.second);
    if && 1 <= month <= 12
       && 1 <= year
       && 1 <= day <= DaysInMonth(year, month)
       && 1 <= hour <= 12
       && minute <= 59
       && second <= 59
    then
      Hour24Inverse(hour, IsPm(st.marker));
      Some(DateTime(year, month, day, Hour24(hour, IsPm(st.marker)), minute, second))
    else
      None
  }

  /** `datetime.strptime(text, "%m/%d/%Y %I:%M:%S %p")`; None where Python raises ValueError. */
  function Parse(text: string): (r: Option<DateTime>)
    ensures r.Some? ==> Valid(r.value)
  {
    match Lex(text)
    case None => None
    case Some(st) => Decode(st)
  }

  // ---------------------------------------------------------------------
  // Rendering: every way of writing a date and time that the format accepts

  datatype DayPad = Minimal | ZeroPadded | SpacePadded

  /** The free choices in writing a timestamp: padding, whitespace runs and letter case of AM/PM. */
  datatype Layout = Layout(monthPadded: bool, dayPad: DayPad, hourPadded: bool,
                           minutePadded: bool, secondPadded: bool, gap1: string, gap2: string,
                           upperFirst: bool, upperSecond: bool)

  predicate Fits(layout: Layout) {
    IsGap(layout.gap1) && IsGap(layout.gap2)
  }

  function Short(n: nat, padded: bool): string
    requires n < 100
  {
    if padded || n >= 10 then Fixed(n, 2) else Fixed(n, 1)
  }

  function DayText(day: nat, pad: DayPad): string
    requires day < 100
  {
    match pad
    case Minimal => Short(day, false)
    case ZeroPadded => Short(day, true)
    case SpacePadded => if day < 10 then " " + Fixed(day, 1) else Fixed(day, 2)
  }

  function MarkerText(pm: bool, upperFirst: bool, upperSecond: bool): string {
    [if pm then (if upperFirst then 'P' else 'p') else (if upperFirst then 'A' else 'a')]
      + [if upperSecond then 'M' else 'm']
  }

  function Render(t: DateTime, layout: Layout): Stamp
    requires Valid(t)
  {
    Stamp(Short(t.month, layout.monthPadded), DayText(t.day, layout.dayPad), Fixed(t.year, 4),
          layout.gap1, Short(Hour12(t.hour), layout.hourPadded), Short(t.minute, layout.minutePadded),
          Short(t.second, layout.secondPadded), layout.gap2,
          MarkerText(t.hour >= 12, layout.upperFirst, layout.upperSecond))
  }

  lemma ShortValue(n: nat, padded: bool)
    requires n < 100
    ensures IsShortNumber(Short(n, padded)) && DecimalValue(Short(n, padded)) == n
  {
    if padded || n >= 10 {
      DecimalValueOfFixed(n, 2);
    } else {
      DecimalValueOfFixed(n, 1);
    }
  }

  lemma DayTextValue(day: nat, pad: DayPad)
    requires 1 <= day < 100
    ensures IsDayLexeme(DayText(day, pad)) && DayValue(DayText(day, pad)) == day
  {
    match pad
    case Minimal => ShortValue(day, false);
    case ZeroPadded => ShortValue(day, true);
    case SpacePadded =>
      if day < 10 {
        DecimalValueOfFixed(day, 1);
      } else {
        DecimalValueOfFixed(day, 2);
      }
  }

  lemma RenderDate(t: DateTime, layout: Layout)
    requires Valid(t)
    ensures IsShortNumber(Render(t, layout).month) && DecimalValue(Render(t, layout).month) == t.month
    ensures IsDayLexeme(Render(t, layout).day) && DayValue(Render(t, layout).day) == t.day
    ensures IsDigits(Render(t, layout).year) && |Render(t, layout).year| == 4
    ensures DecimalValue(Render(t, layout).year) == t.year
  {
    ShortValue(t.month, layout.monthPadded);
    DayTextValue(t.day, layout.dayPad);
    DecimalValueOfFixed(t.year, 4);
  }

  lemma RenderClock(t: DateTime, layout: Layout)
    requires Valid(t)
    ensures IsShortNumber(Render(t, layout).hour) && DecimalValue(Render(t, layout).hour) == Hour12(t.hour)
    ensures IsShortNumber(Render(t, layout).minute) && DecimalValue(Render(t, layout).minute) == t.minute
    ensures IsShortNumber(Render(t, layout).second) && DecimalValue(Render(t, layout).second) == t.second
  {
    ShortValue(Hour12(t.hour), layout.hourPadded);
    ShortValue(t.minute, layout.minutePadded);
    ShortValue(t.second, layout.secondPadded);
  }

  lemma RenderMarker(t: DateTime, layout: Layout)
    requires Valid(t)
    ensures IsMarker(Render(t, layout).marker)
    ensures IsPm(Render(t, layout).marker) == (t.hour >= 12)
  {
  }

  lemma {:induction false} DecodeRender(t: DateTime, layout: Layout)
    requires Valid(t) && Fits(layout)
    ensures WellFormed(Render(t, layout)) && Decode(Render(t, layout)) == Some(t)
  {
    RenderDate(t, layout);
    RenderClock(t, layout);
    RenderMarker(t, layout);
    Hour24Bijective(Hour12(t.hour), t.hour >= 12, t.hour);
  }

  /** Every valid date and time, written in any layout the format admits, parses back to itself. */
  lemma {:induction false} ParseRender(t: DateTime, layout: Layout)
    requires Valid(t) && Fits(layout)
    ensures Parse(Unlex(Render(t, layout))) == Some(t)
  {
    DecodeRender(t, layout);
    LexUnlex(Render(t, layout));
  }

  lemma ShortOfValue(s: string)
    requires IsShortNumber(s)
    ensures DecimalValue(s) < 100 && Short(DecimalValue(s), |s| == 2) == s
  {
    FixedOfDecimalValue(s);
    DecimalValueBound(s);
  }

  lemma DayTextOfValue(s: string)
    requires IsDayLexeme(s) && DayValue(s) >= 1
    ensures DayValue(s) < 100
    ensures DayText(DayValue(s), if s[0] == ' ' then SpacePadded else if |s| == 2 then ZeroPadded else Minimal) == s
  {
    if s[0] == ' ' {
      assert Fixed(DayValue(s), 1) == [s[1]];
      assert s == " " + [s[1]];
    } else {
      ShortOfValue(s);
    }
  }

  lemma MarkerTextOf(marker: string)
    requires IsMarker(marker)
    ensures MarkerText(IsPm(marker), marker[0] == 'A' || marker[0] == 'P', marker[1] == 'M') == marker
  {
  }

  /** The layout a well-formed stamp is written in. */
  function LayoutOf(st: Stamp): Layout
    requires WellFormed(st)
  {
    var dayPad := if st.day[0] == ' ' then SpacePadded else if |st.day| == 2 then ZeroPadded else Minimal;
    Layout(|st.month| == 2, dayPad, |st.hour| == 2, |st.minute| == 2, |st.second| == 2,
           st.gap1, st.gap2, st.marker[0] == 'A' || st.marker[0] == 'P', st.marker[1] == 'M')
  }

  lemma {:induction false} RenderDecode(st: Stamp)
    requires WellFormed(st) && Decode(st).Some?
    ensures Fits(LayoutOf(st)) && Render(Decode(st).value, LayoutOf(st)) == st
  {
    var t := Decode(st).value;
    var layout := LayoutOf(st);
    var r := Render(t, layout);
    RenderDateOf(st);
    RenderClockOf(st);
    MarkerTextOf(st.marker);
    assert r.marker == st.marker;
  }

  lemma RenderDateOf(st: Stamp)
    requires WellFormed(st) && Decode(st).Some?
    ensures var r := Render(Decode(st).value, LayoutOf(st));
      r.month == st.month && r.day == st.day && r.year == st.year
  {
    ShortOfValue(st.month);
    DayTextOfValue(st.day);
    FixedOfDecimalValue(st.year);
  }

  lemma RenderClockOf(st: Stamp)
    requires WellFormed(st) && Decode(st).Some?
    ensures var r := Render(Decode(st).value, LayoutOf(st));
      r.hour == st.hour && r.minute == st.minute && r.second == st.second
  {
    ShortOfValue(st.hour);
    ShortOfValue(st.minute);
    ShortOfValue(st.second);
  }

  /** Conversely, every text Parse accepts is some layout of the date and time it yields. */
  lemma {:induction false} ParseOnlyRenders(text: string)
    requires Parse(text).Some?
    ensures exists layout :: Fits(layout) && Unlex(Render(Parse(text).value, layout)) == text
  {
    var st := Lex(text).value;
    RenderDecode(st);
    var layout := LayoutOf(st);
    assert Fits(layout) && Unlex(Render(Parse(text).value, layout)) == text;
  }

  // ---------------------------------------------------------------------
  // Worked examples

  lemma DecimalValueOfShort(s: string)
    requires IsShortNumber(s)
    ensures DecimalValue(s) == if |s| == 1 then DigitValue(s[0]) else 10 * DigitValue(s[0]) + DigitValue(s[1])
  {
    if |s| == 2 {
      assert s[..1][..0] == [];
    } else {
      assert s[..0] == [];
    }
  }

  lemma DecimalValueOfYear(s: string)
    requires IsDigits(s) && |s| == 4
    ensures DecimalValue(s) == 1000 * DigitValue(s[0]) + 100 * DigitValue(s[1]) + 10 * DigitValue(s[2]) + DigitValue(s[3])
  {
    var init := s[..3];
    assert init[..2] == s[..2];
    DecimalValueOfShort(s[..2]);
  }

  /** The values of a stamp's numeric lexemes, digit by digit. */
  lemma StampDigits(st: Stamp)
    requires WellFormed(st)
    ensures DecimalValue(st.year) == 1000 * DigitValue(st.year[0]) + 100 * DigitValue(st.year[1])
                                     + 10 * DigitValue(st.year[2]) + DigitValue(st.year[3])
    ensures DecimalValue(st.month) == if |st.month| == 1 then DigitValue(st.month[0])
                                      else 10 * DigitValue(st.month[0]) + DigitValue(st.month[1])
    ensures st.day[0] != ' ' ==> DayValue(st.day) == if |st.day| == 1 then DigitValue(st.day[0])
                                      else 10 * DigitValue(st.day[0]) + DigitValue(st.day[1])
    ensures DecimalValue(st.hour) == if |st.hour| == 1 then DigitValue(st.hour[0])
                                     else 10 * DigitValue(st.hour[0]) + DigitValue(st.hour[1])
    ensures DecimalValue(st.minute) == if |st.minute| == 1 then DigitValue(st.minute[0])
                                       else 10 * DigitValue(st.minute[0]) + DigitValue(st.minute[1])
    ensures DecimalValue(st.second) == if |st.second| == 1 then DigitValue(st.second[0])
                                       else 10 * DigitValue(st.second[0]) + DigitValue(st.second[1])
  {
    DecimalValueOfYear(st.year);
    DecimalValueOfShort(st.month);
    if st.day[0] != ' ' {
      DecimalValueOfShort(st.day);
    }
    DecimalValueOfShort(st.hour);
    DecimalValueOfShort(st.minute);
    DecimalValueOfShort(st.second);
  }

  /** The text of a well-formed stamp parses exactly as the stamp decodes. */
  lemma ParseOfStamp(st: Stamp, text: string)
    requires WellFormed(st) && Unlex(st) == text
    ensures Parse(text) == Decode(st)
  {
    LexUnlex(st);
  }
}

=== FILE: timestamp_examples.dfy ===
/**
 Worked examples of the `LastUpdate` timestamp format. Each example names
 the stamp a text is cut into, shows that the text spells that stamp, works
 out what the stamp decodes to, and so what the text parses to. The text is
 a parameter equal to a literal.
 */
module TimestampExamples {
  import opened Results
  import opened Timestamp

  const AfternoonStamp := Stamp("3", "4", "2023", " ", "1", "02", "03", " ", "PM")

  lemma AfternoonWellFormed()
    ensures WellFormed(AfternoonStamp)
  {
  }

  lemma AfternoonSpelled(text: string)
    requires text == "3/4/2023 1:02:03 PM"
    ensures Unlex(AfternoonStamp) == text
  {
  }

  lemma AfternoonDecodes()
    ensures Decode(AfternoonStamp) == Some(DateTime(2023, 3, 4, 13, 2, 3))
  {
    StampDigits(AfternoonStamp);
  }

  /** A one-digit afternoon hour: 1 PM is hour 13. */
  lemma AfternoonExample(text: string)
    requires text == "3/4/2023 1:02:03 PM"
    ensures Parse(text) == Some(DateTime(2023, 3, 4, 13, 2, 3))
  {
    AfternoonWellFormed();
    AfternoonSpelled(text);
    ParseOfStamp(AfternoonStamp, text);
    AfternoonDecodes();
  }

  const MidnightStamp := Stamp("1", "1", "2000", " ", "12", "00", "00", " ", "AM")

  lemma MidnightWellFormed()
    ensures WellFormed(MidnightStamp)
  {
  }

  lemma MidnightSpelled(text: string)
    requires text == "1/1/2000 12:00:00 AM"
    ensures Unlex(MidnightStamp) == text
  {
  }

  lemma MidnightDecodes()
    ensures Decode(MidnightStamp) == Some(DateTime(2000, 1, 1, 0, 0, 0))
  {
    StampDigits(MidnightStamp);
  }

  /** 12 AM is hour 0. */
  lemma MidnightExample(text: string)
    requires text == "1/1/2000 12:00:00 AM"
    ensures Parse(text) == Some(DateTime(2000, 1, 1, 0, 0, 0))
  {
    MidnightWellFormed();
    MidnightSpelled(text);
    ParseOfStamp(MidnightStamp, text);
    MidnightDecodes();
  }

  const NoonStamp := Stamp("1", "1", "2000", " ", "12", "00", "00", " ", "pm")

  lemma NoonWellFormed()
    ensures WellFormed(NoonStamp)
  {
  }

  lemma NoonSpelled(text: string)
    requires text == "1/1/2000 12:00:00 pm"
    ensures Unlex(NoonStamp) == text
  {
  }

  lemma NoonDecodes()
    ensures Decode(NoonStamp) == Some(DateTime(2000, 1, 1, 12, 0, 0))
  {
    StampDigits(NoonStamp);
  }

  /** 12 PM is hour 12, and the marker is read in any case. */
  lemma NoonExample(text: string)
    requires text == "1/1/2000 12:00:00 pm"
    ensures Parse(text) == Some(DateTime(2000, 1, 1, 12, 0, 0))
  {
    NoonWellFormed();
    NoonSpelled(text);
    ParseOfStamp(NoonStamp, text);
    NoonDecodes();
  }

  const PaddedStamp := Stamp("03", " 4", "2023", "  ", "01", "02", "03", "\t", "PM")

  lemma PaddedWellFormed()
    ensures WellFormed(PaddedStamp)
  {
  }

  lemma PaddedSpelled(text: string)
    requires text == "03/ 4/2023  01:02:03\tPM"
    ensures Unlex(PaddedStamp) == text
  {
  }

  lemma PaddedDecodes()
    ensures Decode(PaddedStamp) == Some(DateTime(2023, 3, 4, 13, 2, 3))
  {
    StampDigits(PaddedStamp);
  }

  /** Zero- and space-padded fields, and any run of whitespace where the format has a space. */
  lemma PaddedExample(text: string)
    requires text == "03/ 4/2023  01:02:03\tPM"
    ensures Parse(text) == Some(DateTime(2023, 3, 4, 13, 2, 3))
  {
    PaddedWellFormed();
    PaddedSpelled(text);
    ParseOfStamp(PaddedStamp, text);
    PaddedDecodes();
  }

  const LeapDayStamp := Stamp("2", "29", "2024", " ", "12", "00", "00", " ", "AM")

  lemma LeapDayWellFormed()
    ensures WellFormed(LeapDayStamp)
  {
  }

  lemma LeapDaySpelled(text: string)
    requires text == "2/29/2024 12:00:00 AM"
    ensures Unlex(LeapDayStamp) == text
  {
  }

  lemma LeapDayDecodes()
    ensures Decode(LeapDayStamp) == Some(DateTime(2024, 2, 29, 0, 0, 0))
  {
    StampDigits(LeapDayStamp);
  }

  /** February 29th exists in a leap year. */
  lemma LeapDayExample(text: string)
    requires text == "2/29/2024 12:00:00 AM"
    ensures Parse(text) == Some(DateTime(2024, 2, 29, 0, 0, 0))
  {
    LeapDayWellFormed();
    LeapDaySpelled(text);
    ParseOfStamp(LeapDayStamp, text);
    LeapDayDecodes();
  }

  const NoLeapDayStamp := Stamp("2", "29", "2023", " ", "12", "00", "00", " ", "AM")

  lemma NoLeapDayWellFormed()
    ensures WellFormed(NoLeapDayStamp)
  {
  }

  lemma NoLeapDaySpelled(text: string)
    requires text == "2/29/2023 12:00:00 AM"
    ensures Unlex(NoLeapDayStamp) == text
  {
  }

  lemma NoLeapDayDecodes()
    ensures Decode(NoLeapDayStamp) == None
  {
    StampDigits(NoLeapDayStamp);
  }

  /** February 29th does not exist in 2023. */
  lemma NoLeapDayExample(text: string)
    requires text == "2/29/2023 12:00:00 AM"
    ensures Parse(text) == None
  {
    NoLeapDayWellFormed();
    NoLeapDaySpelled(text);
    ParseOfStamp(NoLeapDayStamp, text);
    NoLeapDayDecodes();
  }

  const CenturyNoLeapDayStamp := Stamp("2", "29", "1900", " ", "12", "00", "00", " ", "AM")

  lemma CenturyNoLeapDayWellFormed()
    ensures WellFormed(CenturyNoLeapDayStamp)
  {
  }

  lemma CenturyNoLeapDaySpelled(text: string)
    requires text == "2/29/1900 12:00:00 AM"
    ensures Unlex(CenturyNoLeapDayStamp) == text
  {
  }

  lemma CenturyNoLeapDayDecodes()
    ensures Decode(CenturyNoLeapDayStamp) == None
  {
    StampDigits(CenturyNoLeapDayStamp);
    assert !IsLeapYear(1900) by {
      assert 1900 % 100 == 0 && 1900 % 400 == 300;
    }
  }

  /** Nor in 1900, a century year not divisible by 400. */
  lemma CenturyNoLeapDayExample(text: string)
    requires text == "2/29/1900 12:00:00 AM"
    ensures Parse(text) == None
  {
    CenturyNoLeapDayWellFormed();
    CenturyNoLeapDaySpelled(text);
    ParseOfStamp(CenturyNoLeapDayStamp, text);
    CenturyNoLeapDayDecodes();
  }

  const ThirteenthMonthStamp := Stamp("13", "1", "2023", " ", "1", "00", "00", " ", "PM")

  lemma ThirteenthMonthWellFormed()
    ensures WellFormed(ThirteenthMonthStamp)
  {
  }

  lemma ThirteenthMonthSpelled(text: string)
    requires text == "13/1/2023 1:00:00 PM"
    ensures Unlex(ThirteenthMonthStamp) == text
  {
  }

  lemma ThirteenthMonthDecodes()
    ensures Decode(ThirteenthMonthStamp) == None
  {
    StampDigits(ThirteenthMonthStamp);
  }

  /** A thirteenth month is refused: "13" lexes as two digits, but it is not a month (nor does CPython's `%m` pattern match it). */
  lemma ThirteenthMonthExample(text: string)
    requires text == "13/1/2023 1:00:00 PM"
    ensures Parse(text) == None
  {
    ThirteenthMonthWellFormed();
    ThirteenthMonthSpelled(text);
    ParseOfStamp(ThirteenthMonthStamp, text);
    ThirteenthMonthDecodes();
  }

  const AprilThirtyFirstStamp := Stamp("4", "31", "2023", " ", "1", "00", "00", " ", "PM")

  lemma AprilThirtyFirstWellFormed()
    ensures WellFormed(AprilThirtyFirstStamp)
  {
  }

  lemma AprilThirtyFirstSpelled(text: string)
    requires text == "4/31/2023 1:00:00 PM"
    ensures Unlex(AprilThirtyFirstStamp) == text
  {
  }

  lemma AprilThirtyFirstDecodes()
    ensures Decode(AprilThirtyFirstStamp) == None
  {
    StampDigits(AprilThirtyFirstStamp);
  }

  /** April has 30 days. */
  lemma AprilThirtyFirstExample(text: string)
    requires text == "4/31/2023 1:00:00 PM"
    ensures Parse(text) == None
  {
    AprilThirtyFirstWellFormed();
    AprilThirtyFirstSpelled(text);
    ParseOfStamp(AprilThirtyFirstStamp, text);
    AprilThirtyFirstDecodes();
  }

  const HourZeroStamp := Stamp("1", "1", "2023", " ", "0", "00", "00", " ", "AM")

  lemma HourZeroWellFormed()
    ensures WellFormed(HourZeroStamp)
  {
  }

  lemma HourZeroSpelled(text: string)
    requires text == "1/1/2023 0:00:00 AM"
    ensures Unlex(HourZeroStamp) == text
  {
  }

  lemma HourZeroDecodes()
    ensures Decode(HourZeroStamp) == None
  {
    StampDigits(HourZeroStamp);
  }

  /** Hour 0 is not on the 12-hour clock. */
  lemma HourZeroExample(text: string)
    requires text == "1/1/2023 0:00:00 AM"
    ensures Parse(text) == None
  {
    HourZeroWellFormed();
    HourZeroSpelled(text);
    ParseOfStamp(HourZeroStamp, text);
    HourZeroDecodes();
  }

  const LeapSecondStamp := Stamp("1", "1", "2023", " ", "1", "00", "60", " ", "AM")

  lemma LeapSecondWellFormed()
    ensures WellFormed(LeapSecondStamp)
  {
  }

  lemma LeapSecondSpelled(text: string)
    requires text == "1/1/2023 1:00:60 AM"
    ensures Unlex(LeapSecondStamp) == text
  {
  }

  lemma LeapSecondDecodes()
    ensures Decode(LeapSecondStamp) == None
  {
    StampDigits(LeapSecondStamp);
  }

  /** Second 60 matches `%S` but `datetime` refuses it. */
  lemma LeapSecondExample(text: string)
    requires text == "1/1/2023 1:00:60 AM"
    ensures Parse(text) == None
  {
    LeapSecondWellFormed();
    LeapSecondSpelled(text);
    ParseOfStamp(LeapSecondStamp, text);
    LeapSecondDecodes();
  }

  const YearZeroStamp := Stamp("1", "1", "0000", " ", "1", "00", "00", " ", "AM")

  lemma YearZeroWellFormed()
    ensures WellFormed(YearZeroStamp)
  {
  }

  lemma YearZeroSpelled(text: string)
    requires text == "1/1/0000 1:00:00 AM"
    ensures Unlex(YearZeroStamp) == text
  {
  }

  lemma YearZeroDecodes()
    ensures Decode(YearZeroStamp) == None
  {
    StampDigits(YearZeroStamp);
  }

  /** Year 0000 matches `%Y` but `datetime` refuses it. */
  lemma YearZeroExample(text: string)
    requires text == "1/1/0000 1:00:00 AM"
    ensures Parse(text) == None
  {
    YearZeroWellFormed();
    YearZeroSpelled(text);
    ParseOfStamp(YearZeroStamp, text);
    YearZeroDecodes();
  }
}
